=== FILE: README.md ===
# firebase-steam-login, modelled in Dafny

firebase-steam-login is a small Express service. It signs players in to Firebase with their Steam identity and lets a signed-in user link a Discord account. At the end of either flow it sends the browser back to the registered client application that started it.

This project models the service's decision logic as pure functions. Firebase Auth and the Realtime Database are abstract stores: a user directory, plus the `profiles/{uid}` and `tokens/{uid}` trees. Everything the code hands to an SDK or to the network becomes a function parameter:
- the custom-token minter and `verifyIdToken`;
- the JWT signer;
- the POST to Discord's token endpoint;
- the `change-case` converters;
- the uid Firebase mints for a new user;
- the clock.

Modules, one per source file plus four shared ones:

- `Js` holds JavaScript values (objects as ordered property lists), truthiness, `Object.entries` and `String(v)`.
- `Http` holds the session, the responses and Node's `querystring.escape`/`stringify`.
- `Firebase` holds the Auth directory, with `getUser`/`createUser`/`updateUser`, and the database's shallow `update`.
- `Passport` holds what the Steam and Discord strategies hand over.
- `Utils` models `src/utils.ts`.
- `UserModel` models `src/user.model.ts`, including the merge `Object.assign({}, profile, user)`.
- `App` models `src/api/app.ts`.
- `SteamController`, `DiscordController` and `JwtController` model the files under `src/api/`.
- `Login` models `src/login.ts`.
- `LegacyController` models `src/controller.ts`.
- `ChangeKeyCase` models `src/util/change-key-case.ts`.
- `FirebaseConfig` models `json-to-firebase-config.js`.

The three Steam find-or-create variants are modelled separately:
- `SteamController` looks the user up through the `steam/steamid` index.
- `Login` looks it up with the Steam id as uid.
- `LegacyController` writes under `profiles/{steam id}`.

`src/controller.ts` lines 9-30 repeat `src/login.ts` lines 46-67 almost word for word, so `LegacyController` reuses `Login`'s Auth step. `src/login.ts` lines 123-157 repeat the application's `redirectWithToken` handler, so `Login` reuses `App.RedirectWithTokenHandler` behind its own `asyncRequest`.

In `src/api/app.ts` an error of `handleSteamLogin` or `handleDiscordLogin` goes to Express' error handler (`Unhandled` in the model). Only failures inside `redirectWithToken` are redirected.

## Model

| member | source | states |
|---|---|---|
| `Utils.ClientUrl` | src/utils.ts:21-23 | a client id counts as registered exactly when it is a key of the registry with a non-empty URL, and the URL used is that entry |
| `Utils.ErrorCode` | src/utils.ts:22 | the code sent back is the error's `code` when it is non-empty; a missing or empty code gives "unknown", so the code is never empty |
| `Utils.AsyncRequestRedirectOnError` | src/utils.ts:19-29 | a resolved handler keeps its own response. A rejected one redirects to the session client's URL + "?code=" + code when that client is registered, and answers 500 "Error logging in" otherwise |
| `Utils.ErrorRedirectStaysInRegistry` | src/utils.ts:20-28 | an error redirect only ever targets a registered client's URL, and two errors with the same code get the same answer: the target depends on the session's client id alone |
| `Utils.AsyncRequest` | src/utils.ts:45-50 | a resolved handler keeps its response; a rejection becomes a 500 whose body is "Error " followed by the message |
| `Utils.AsyncRequestReportsMessage` | src/utils.ts:45-50 | the rejection's message can be read back off the 500 body after its six-character prefix, and two rejections get the same answer exactly when their messages agree |
| `Utils.AsyncMiddleware` | src/utils.ts:66-68 | `done` receives exactly one argument: the resolved value on success, the error on rejection |
| `Utils.MiddlewareProceedsIffResolvedFalsy` | src/utils.ts:66-68 | the next handler runs exactly when the promise resolved with a falsy value; a rejection never reaches it |
| `UserModel.Merge` | src/api/steam-controller.ts:51-52 | the merged user has every profile child and every user-record field, the record winning on a clash, so its `uid` is the record's |
| `UserModel.RelinkSameAccountPasses` | src/login.ts:97-99 | once a Discord profile is stored, linking that same profile again never trips the already-linked guard |
| `Passport.AvatarFullUrl` | src/api/steam-controller.ts:34 | reading `photos[2].value` succeeds exactly when Steam sent at least three photos, and yields that photo's URL |
| `App.AuthSteam` | src/api/app.ts:148-161 | the Steam handshake starts exactly when the client id is registered, with a session holding only that client and provider "steam". Otherwise the answer is 400 "Invalid client id" and the session stays empty |
| `App.AuthDiscord` | src/api/app.ts:178-205 | a bad client id gives 400 and an empty session. A good one stores client and provider "discord" before the id token is checked, so a missing token gives 403 with both stored. The handshake starts exactly when the token verifies, with its uid in the session. A failed check answers 403 "Invalid id_token", forwards the verification error to the next handler, and leaves the session without a user id |
| `App.EntryPointsForgetPriorSession` | src/api/app.ts:21-23 | both entry points behave identically whatever the browser's earlier session held |
| `App.RedirectWithTokenHandler` | src/api/app.ts:106-141 | fails without a user, with an unregistered session client, with no provider, or with an unknown provider. It succeeds only for "steam" (query `provider` and the custom token for `user.uid`) or "discord" (query `provider` alone), redirecting to the session client's URL + "?" + query. A refused custom token fails with the token service's own error |
| `App.MintFailureCodeReachesClient` | src/api/app.ts:128-131 | when the token service refuses a Steam user's custom token, the client is sent back with `?code=` and the token service's own error code |
| `App.RedirectsOnlyToSessionClient` | src/api/app.ts:114-140 | whatever the user and token service do, the final step redirects only to the registered URL the session names, followed by "?" |
| `App.FailRoute` | src/api/app.ts:220-224 | `/fail` redirects to the session client's entry + "?code=oauth_fail" without checking it, and to "undefined?code=oauth_fail" when the session names no client |
| `App.SteamCallback` | src/api/app.ts:164-167 | a denied handshake goes to `/fail`. Otherwise the stores are those the Steam login leaves; a login error goes to Express' error handler; a logged-in user gets the final redirect |
| `App.DiscordCallback` | src/api/app.ts:207-211 | a denied handshake goes to `/fail`. Otherwise the stores are those the link leaves; a link error goes to Express' error handler; a completed link moves on to the final redirect |
| `App.SteamQuery` | src/api/app.ts:124-139 | for a token that needs no escaping, the Steam query string is exactly `provider=steam&token=` followed by the token |
| `App.DiscordQuery` | src/api/app.ts:132-139 | the Discord query string is exactly `provider=discord` |
| `App.SteamSignInReturnsTokenToClient` | src/api/app.ts:148-167 | a sign-in started by a registered client, vouched for by Steam and completed by the login, lands on that client's URL with `?provider=steam&token=` and the custom token for the user's uid |
| `App.DiscordLinkReturnsToClient` | src/api/app.ts:178-211 | a link started by a registered client with a valid id token and stored by the link handler lands on that client's URL with `?provider=discord` |
| `App.FailedHandshakeReturnsToClient` | src/api/app.ts:220-224 | after a Steam entry point accepted a client, a failed handshake returns the browser to that client with `code=oauth_fail` |
| `App.ControllersAsWritten` | src/api/app.ts:28-32 | the constructor creates the Discord controller only, over the configured Discord credentials; the JWT controller field stays unset |
| `App.MakeControllers` | src/api/app.ts:28-32 | corrected: with both controllers constructed, the application holds the configured JWT keys and Discord credentials |
| `App.JwtPublicRoute` | src/api/app.ts:215 | `/jwt-public` fails inside Express when the JWT controller is unset, and serves the controller's answer otherwise |
| `App.AsWrittenPublicKeyRouteFails` | src/api/app.ts:215 | with the constructor as written, every `/jwt-public` request ends in Express' error handler |
| `App.PublicKeyRouteServesConfiguredKey` | src/api/jwt-controller.ts:42-44 | with the controller constructed, `/jwt-public` answers `{ key }` holding the configured public key |
| `SteamController.Matches` | src/api/steam-controller.ts:17-22 | the index query returns exactly the profile nodes whose `steam/steamid` child is the Steam id as a string |
| `SteamController.ExistingUserId` | src/api/steam-controller.ts:22-26 | there is an existing user id exactly when the query matched something, and then it is the first matching key in query order |
| `SteamController.ProfilePhoto` | src/api/steam-controller.ts:47 | the stored avatar is `photos[2].value` when Steam sent a third photo with a non-empty URL; with fewer photos, a missing URL or an empty one it is the default avatar URL. It is never empty |
| `SteamController.FindOrCreate` | src/api/steam-controller.ts:27-43 | the Auth step succeeds exactly when the service is up, Steam sent three photos, and either the matched user exists or the new uid is free and no user holds the e-mail "<id>@steamcommunity.com". A match gets its name and avatar updated; otherwise a user is created with that e-mail, unverified and enabled |
| `SteamController.OrphanedEmailBlocksLogin` | src/api/steam-controller.ts:17-36 | when the index finds no profile for the Steam id but some user already holds its synthesised e-mail, the login fails with `auth/email-already-exists` |
| `SteamController.HandleSteamLogin` | src/api/steam-controller.ts:16-53 | a failed login changes nothing. A successful one adds at most the new uid to Auth, upserts `displayName`, `photoURL` and `steam` into that uid's profile, leaves tokens alone, and returns the profile merged with the user record. Auth ends up exactly as the find-or-create step left it: only the login's user changes |
| `SteamController.LoginUpsertsProfile` | src/api/steam-controller.ts:45-49 | after a login, the user's profile holds the Steam record, the name and the avatar (with the default fallback). Every other child of that node and every other node is as before |
| `SteamController.MatchesAfterUpsert` | src/api/steam-controller.ts:45-49 | writing a login's profile adds its uid to the index matches for its Steam id and changes no other match |
| `SteamController.IndexFindsUpsertedUid` | src/api/steam-controller.ts:17-27 | after a login's profile write, the index lookup for the same Steam id yields the uid the login used |
| `SteamController.RepeatLoginReusesUid` | src/api/steam-controller.ts:17-49 | once a login has stored a Steam record carrying the id, the next login for that id finds the same uid, creates no user, and succeeds exactly when Steam sends three photos |
| `DiscordController.RefreshRequestFields` | src/api/discord-controller.ts:19-24 | the refresh request lists `refresh_token`, `client_id`, `client_secret` and `grant_type` "refresh_token", in that order, with the given token and configured credentials |
| `DiscordController.RefreshRequestCarriesFourFields` | src/api/discord-controller.ts:19-24 | the urlencoded body splits on `&` into exactly those four `key=escaped value` fields, whatever the token and credentials contain |
| `DiscordController.StoredTokenAsWritten` | src/api/discord-controller.ts:33-40 | as written, the stored token copies the access token, type and scope from the answer and keeps the refresh token that was sent; `expires` exceeds the exchange time by exactly the raw `expires_in` |
| `DiscordController.AsWrittenExpiryUsesWrongUnit` | src/api/discord-controller.ts:36 | as written, a token granted for a week (604800 s) is recorded as expiring 604800 ms after the exchange, well before its real end |
| `DiscordController.StoredTokenCorrected` | src/api/discord-controller.ts:33-40 | corrected: the same fields as written, except that the token expires `expires_in` seconds (in ms) after the exchange |
| `DiscordController.CorrectionOnlyMovesExpiry` | src/api/discord-controller.ts:33-40 | the corrected token differs from the as-written one in `expires` alone, and the two coincide exactly when `expires_in` is 0 |
| `DiscordController.StoredExpiryMatchesLifetime` | src/api/discord-controller.ts:36 | corrected: the stored token counts as live at an instant exactly when fewer than `expires_in` seconds have passed since the exchange |
| `DiscordController.GetDiscordTokenFromRefreshToken` | src/api/discord-controller.ts:18-42 | as written: a failed exchange rejects with its error; a successful one yields the answer's access token, type and scope, the sent refresh token, and `expires` equal to the exchange time plus the raw `expires_in` |
| `DiscordController.GetDiscordTokenFromRefreshTokenCorrected` | src/api/discord-controller.ts:18-42 | corrected: the same, except that `expires` is the exchange time plus `expires_in` seconds in ms |
| `DiscordController.CheckLink` | src/api/discord-controller.ts:51-67 | the link may proceed exactly when the session has a user id, Auth has that user, a profile node exists, and no different Discord account is linked. In the last case the error is `AlreadyLinkedError` |
| `DiscordController.Link` | src/api/discord-controller.ts:69-77 | the `discord` child of the profile is always written. The `discord` child of `tokens/{uid}` is written only when the exchange succeeded; a failed exchange leaves tokens untouched and rejects |
| `DiscordController.HandleDiscordLogin` | src/api/discord-controller.ts:49-79 | a failed check rejects before any write with the check's error; otherwise the link's writes happen, with the as-written exchange, and a success resolves with `undefined` |
| `DiscordController.AsWrittenLinkStoresRawExpiry` | src/api/discord-controller.ts:33-77 | as written, a link that passes the checks and gets an answer resolves with `undefined` and stores under `tokens/{uid}/discord` a token whose `expires` is the link time plus the raw `expires_in` |
| `DiscordController.CorrectedLinkStoresLifetime` | src/api/discord-controller.ts:33-77 | corrected: the link with the corrected exchange stores a token that expires `expires_in` seconds after the link |
| `DiscordController.RelinkIsIdempotent` | src/api/discord-controller.ts:65-77 | linking the same Discord account again with the same exchange answer passes the guard and leaves the stores as the first link left them |
| `JwtController.SignedClaims` | src/api/jwt-controller.ts:22-31 | the claims carry `uid` and `sub` equal to the token's uid, `aud` equal to its audience, and issuer "firebase-steam-login". `iat` is the request time in whole seconds and `exp` is thirty days after it |
| `JwtController.LonglivedToken` | src/api/jwt-controller.ts:14-37 | corrected, with `admin` imported: a missing id token fails with "Missing id token" before anything else; a rejected verification fails with its error. An id token that verifies gets `{ token, expires }` when its claims sign, the token being signed over those claims with the configured key and algorithm RS256 and `expires` being `exp` in ms; a signing failure rejects with its error |
| `JwtController.LonglivedTokenAsWritten` | src/api/jwt-controller.ts:16-20 | as written the handler always rejects: with "Missing id token", or with the ReferenceError of the missing `admin` import |
| `JwtController.AsWrittenNeverIssuesToken` | src/api/jwt-controller.ts:14-20 | as written, no request gets a token; one carrying an id token gets a 500 naming the missing `admin` binding |
| `JwtController.GenerateLonglivedToken` | src/api/jwt-controller.ts:14-18 | corrected, with `admin` imported: a request without an id token gets 500 "Error Missing id token". A verified id token whose claims sign gets the token JSON; a failed signing gets a 500 "Error " followed by its message. Any answer is either the token JSON or a 500 |
| `JwtController.CorrectedIssuesToken` | src/api/jwt-controller.ts:14-35 | corrected, with `admin` imported: a verified id token whose claims sign is answered with JSON holding that token and an `expires` thirty days after the request, rounded down to the second, in ms |
| `JwtController.ExpiresThirtyDaysLater` | src/api/jwt-controller.ts:25-35 | an issued token's `expires` is a whole second, in ms, at most thirty days after the request and less than one second before that |
| `ChangeKeyCase.Convert` | src/util/change-key-case.ts:21-25 | the result never lists a key twice, and its keys are exactly the converted input keys |
| `ChangeKeyCase.ConvertEntry` | src/util/change-key-case.ts:23 | a non-object value, `null` included, is copied unchanged; an object or array becomes the plain object converted from its own entries |
| `ChangeKeyCase.ConvertEntryIsRecursiveCall` | src/util/change-key-case.ts:23 | a nested object's entry is exactly what the recursive `changeKeyCase` call returns for it, whichever object it sits in |
| `ChangeKeyCase.ChangeKeyCase` | src/util/change-key-case.ts:17-26 | `null` and `undefined` throw. Any other input yields a fresh plain object without duplicate keys, and an object's result is the conversion of its entries |
| `ChangeKeyCase.ConvertKeepsLastValue` | src/util/change-key-case.ts:21-25 | when several keys convert to the same key, the result holds the converted value of the last of them |
| `ChangeKeyCase.ConvertHasNoOtherKeys` | src/util/change-key-case.ts:21-22 | a key that no input key converts to is absent from the result |
| `ChangeKeyCase.ConvertKeepsConvertedFlatObject` | src/util/change-key-case.ts:21-25 | an object with distinct keys that are already in the wanted case and no nested objects comes back unchanged, in the same order |
| `FirebaseConfig.Prefixed` | json-to-firebase-config.js:26-29 | every line of a nested object is put behind the converted key and a dot, one for one |
| `FirebaseConfig.Parse` | json-to-firebase-config.js:20-37 | `parse` throws exactly on `null` and `undefined` |
| `FirebaseConfig.Leaves` | json-to-firebase-config.js:22-34 | the leaves of a tree in key order: each has a non-empty key path and a non-object value (`null` included); a nested object's leaves follow one another behind its key |
| `FirebaseConfig.ParseRendersLeaves` | json-to-firebase-config.js:22-34 | the lines produced for a node's entries are, one for one and in order, the leaves of that node rendered as `a.b.c="v"` with every key converted |
| `FirebaseConfig.ParseFlattensTree` | json-to-firebase-config.js:20-37 | `parse` of an object succeeds and yields exactly one `path="value"` line per leaf of the tree, in the leaves' order |
| `FirebaseConfig.EmptyObjectsVanish` | json-to-firebase-config.js:22-34 | a property holding an empty object, wherever it sits among its siblings, yields no line: the lines are those of the siblings alone |
| `Login.AsyncRequest` | src/login.ts:23-33 | a resolved handler keeps its response; a rejection with no registered session client gets a 500 "Error logging in" that is written but not ended |
| `Login.AsyncRequestAgreesWithUtils` | src/login.ts:23-33 | this wrapper answers as `asyncRequestRedirectOnError` does, except that it only writes the 500 the other sends; both redirect in exactly the same cases |
| `Login.FindUser` | src/login.ts:46-52 | a user stored under the Steam id is found. A missing one is reported as none. Any other Auth error is rethrown, unless its code happens to be "auth/user-not-found" |
| `Login.FindOrCreateAsWritten` | src/login.ts:46-67 | as written, a new user is created without a uid (Firebase mints one) from `photos[2].value`, and an existing one is updated with the photo object `photos[2]`. On success only that user's account changes, under the Steam id if a user had it and the minted uid otherwise |
| `Login.FindOrCreate` | src/login.ts:46-67 | the Auth step succeeds exactly when the service is up and Steam sent three photos. The user then lives under the Steam id with the Steam name; the avatar is `photos[2].value` when present; a new user is unverified and enabled, while an existing one keeps those flags |
| `Login.StoreSteamRecord` | src/login.ts:69-74 | after the Auth step, only `profiles/{uid}/steam` is written, tokens stay, and the result is the merged user with the record's uid and the Steam record |
| `Login.HandleSteamLoginAsWritten` | src/login.ts:44-75 | as written, a failed login changes nothing. A successful one adds the uid it used to Auth and writes the Steam record there; that uid is the Steam id if a user had it, the minted uid otherwise. Whenever the Auth step succeeds, so does the login, and Auth is as that step left it: every other user is unchanged |
| `Login.HandleSteamLogin` | src/login.ts:44-75 | the corrected login succeeds exactly when the service is up and Steam sent three photos. It keeps the user under the Steam id with the Steam name, writes only the `steam` child of that profile, and returns a user with that uid and record. Auth is as the Auth step left it: every other user is unchanged |
| `Login.AsWrittenRepeatLoginCreatesAnotherUser` | src/login.ts:54-60 | as written, a second login for the same Steam id finds nobody and creates another user under a new uid |
| `Login.AsWrittenUpdateRejectsPhotoObject` | src/login.ts:61-66 | as written, a login for a user that exists under the Steam id is rejected with `auth/invalid-photo-url` and writes nothing |
| `Login.RepeatLoginReusesUser` | src/login.ts:46-71 | corrected, a second login for the same Steam id succeeds under the same uid and creates no user |
| `Login.ExistingUserGetsSteamAvatar` | src/login.ts:61-66 | corrected, an existing user's login succeeds and stores the full-size avatar URL |
| `Login.HandleDiscordLogin` | src/login.ts:82-116 | the link is refused, with nothing written, exactly when the checks fail. Otherwise only the `discord` children of the profile and of `tokens/{uid}` are written, the latter with both tokens, and the merged user is returned |
| `Login.LinkLeavesRestUntouched` | src/login.ts:101-115 | a link changes no other user's nodes and no other child of the user's nodes, and the returned user carries the new Discord profile |
| `Login.RelinkIsIdempotent` | src/login.ts:97-111 | linking the same account again passes the guard and leaves stores and result exactly as the first link did |
| `Login.RedirectWithTokenMatchesApp` | src/login.ts:122-157 | the standalone redirect lands where the application's does, and differs only in the unended 500 it leaves when the session names no registered client |
| `LegacyController.Respond` | src/controller.ts:31-37 | the Steam record goes to `profiles/{steam id}` even when minting the token then fails. The answer is `{ token }` for the Auth user's uid, or the minting error |
| `LegacyController.HandleSteamLoginAsWritten` | src/controller.ts:5-38 | as written, a failed Auth step changes nothing; otherwise the Steam record is written under the Steam id, and only a live service gets a token. Auth is as the as-written Auth step left it, changed only at the uid that step used |
| `LegacyController.HandleSteamLogin` | src/controller.ts:5-38 | corrected, a login without the service or without three photos changes nothing. Otherwise the user lives under the Steam id, its profile gets the Steam record, and the answer is that uid's token or the minting error. Auth is as the Auth step left it: every other user is unchanged |
| `LegacyController.AsWrittenProfileMissesUser` | src/controller.ts:17-33 | as written, a first login hands out a token for the minted uid but stores the Steam record under the Steam id, which no Auth user owns, and leaves the user's own profile node as it was |
| `LegacyController.ProfileFollowsUser` | src/controller.ts:17-36 | corrected, the Steam record lands in the profile node of the very user whose token is handed out |
| `LegacyController.AsWrittenExistingUserGetsNoToken` | src/controller.ts:24-29 | as written, a login for a user that exists under the Steam id gets no token (`auth/invalid-photo-url`) and writes nothing |
| `LegacyController.ExistingUserGetsToken` | src/controller.ts:24-37 | corrected, a returning user gets a token for the same uid and no user is created |

## Left out

- HTTP and process wiring is not modelled: Express and Passport setup, CORS, compression, logging, `src/server.ts` and `src/functions.ts`. The service starts through `App`'s routes.
- The provider protocols are not modelled: the Steam OpenID and Discord OAuth2 handshakes become a `Handshake` input. The HTTP POST to Discord's token endpoint is the `post` parameter, and the clock is a `nowMillis` parameter.
- The Admin SDK is not modelled beyond the stores. `verifyIdToken`, `createCustomToken`, `jwt.sign` and uid generation are parameters. `jwt.decode` is taken to read back the `exp` that was signed.
- `once("value")` is read as the stored record. The code reads `.discord` off the snapshot without `.val()` (src/login.ts:93-97, src/api/discord-controller.ts:61-65), and it merges the snapshot object rather than its value. The real SDK behaviour of that guard and merge lies outside the model; only the merged `uid`, which comes from the user record, is read downstream.
- UserModel.Merge: merges the stored profile record, not the `DataSnapshot` object that `Object.assign` copies in the source.
- The `!firebaseUser` check after `getUser` (src/api/discord-controller.ts:57-59, src/login.ts:89-91) is not modelled, because a resolved `getUser` never yields a falsy record.
- Registry lookups read own keys only. Inherited property names such as `constructor` or `__proto__` used as client ids are not modelled.
- Numbers are integers. JavaScript floating point, `Date` precision, and the ordering `Object.keys` gives integer-like keys are not modelled.
- `updateUser` with `photoURL: null` deleting the photo is modelled, but URL validation of strings is not: any string is accepted.
- Query values given as arrays (`?client_id=a&client_id=b`) are not modelled: a query parameter is a string or absent.
- A failing `req.session.regenerate` is not modelled: regeneration always yields an empty session.
- Concurrency is not modelled. The `Promise.all` writes and the unawaited profile write of `src/controller.ts` happen in program order, and database writes never fail.
- UserModel.LinkedToOther: compares the stored and the new Discord ids with strict inequality. The source's loose `!=` would also let a string id and an equal number pass (`"1"` against `1`); the model does not promise that case.
- Firebase.CreateUser: reports `auth/uid-already-exists` when the uid it would mint is taken. Firebase never mints a taken uid, so that failure exists only in the model; the `generated` parameter should be read as a fresh uid.
- JwtController.GetJwtPublicKey: carries no contract of its own. What it answers is stated by `App.PublicKeyRouteServesConfiguredKey`.
- The config loaders (`src/config/*.ts`, `src/config.ts`) are not modelled, and neither are stdin reading and the `firebase` child process of `json-to-firebase-config.js`.

## Findings

| source | as written | input that shows it | evidently intended | confidence | as-written member | corrected member |
|---|---|---|---|---|---|---|
| src/login.ts:54-60 | the user is looked up with the Steam id as uid but created without a uid | two logins for a new Steam id: the first creates a user under a minted uid; the second looks up the Steam id, finds nobody, and creates another user | create the user with `uid` set to the Steam id | high (not executed) | `Login.AsWrittenRepeatLoginCreatesAnotherUser` | `Login.RepeatLoginReusesUser` |
| src/login.ts:63-66 | `updateUser` gets `photoURL: steamProfile.photos[2]`, an object | a login for a user stored under its Steam id with three photos: the SDK rejects with `auth/invalid-photo-url` | pass `photos[2].value` as the create branch does | medium (not executed; `photos[2]` is typed as an object, so a type-checked build would refuse the call instead) | `Login.AsWrittenUpdateRejectsPhotoObject` | `Login.ExistingUserGetsSteamAvatar` |
| src/controller.ts:17-33 | the user is created without a uid, but the profile is written under `profiles/{steam id}` | a first login: the token is for the minted uid, while the Steam record sits under the Steam id, a node no user owns | create the user under the Steam id so both coincide | high (not executed) | `LegacyController.AsWrittenProfileMissesUser` | `LegacyController.ProfileFollowsUser` |
| src/controller.ts:26-29 | `updateUser` gets `photoURL: user.photos[2]`, an object | a login for a user stored under its Steam id: rejected with `auth/invalid-photo-url`, so no token | pass `photos[2].value` | medium (not executed; `photos[2]` is typed as an object, so a type-checked build would refuse the call instead) | `LegacyController.AsWrittenExistingUserGetsNoToken` | `LegacyController.ExistingUserGetsToken` |
| src/api/discord-controller.ts:36 | `expires` is the time in milliseconds plus `expires_in`, which section 5.1 of RFC 6749 gives in seconds | `expires_in` 604800 (a week) is stored as expiring 604800 ms, about ten minutes, after the exchange | `now + expires_in * 1000` | high (not executed) | `DiscordController.AsWrittenExpiryUsesWrongUnit` | `DiscordController.StoredExpiryMatchesLifetime` |
| src/api/app.ts:28-32 | `jwtController` is declared and its routes are registered (lines 215-216), but the constructor never creates it | any GET `/jwt-public`: `this.jwtController` is `undefined`, so the method call throws | construct `new JwtController(this.config)` beside the Discord controller | high (not executed) | `App.AsWrittenPublicKeyRouteFails` | `App.PublicKeyRouteServesConfiguredKey` |
| src/api/jwt-controller.ts:20 | `admin` is used but never imported | through the application, POST `/longlived-token` first fails because `this.jwtController` is never constructed (src/api/app.ts:216, row above). Once the controller is constructed, a request with an id token hits a ReferenceError, answered as 500 "Error admin is not defined" | import `firebase-admin` as the other controllers do | medium (not executed; a type-checked build would refuse the file instead) | `JwtController.AsWrittenNeverIssuesToken` | `JwtController.CorrectedIssuesToken` |

=== FILE: app.dfy ===
/**
 * The Express application (`src/api/app.ts`): the two entry points that
 * validate the calling client and seed the session, the provider
 * callbacks, the final redirect that carries the outcome back to the
 * client application, and the `/fail` route.
 */
module App {
  import opened Js
  import opened Http
  import opened Firebase
  import opened Passport
  import opened Utils
  import SteamController
  import DiscordController
  import JwtController

  /** The parts of the configuration the routes read. */
  datatype Config = Config(
    clients: Clients,
    discord: DiscordController.DiscordConfig,
    jwt: JwtController.JwtConfig)

  /** The query parameters of an entry point; `None` is an absent parameter. */
  datatype Query = Query(clientId: Option<string>, idToken: Option<string>)

  /** What an entry point's validating handler does after the session is regenerated. */
  datatype Step =
      /** Answers the request itself; the handshake does not start. */
    | Respond(response: Response)
      /** Calls `done()`: the strategy's `authenticate` takes over and redirects to the provider. */
    | Authenticate(strategy: string)
      /** Answers, then also passes the error to `done(err)`, after the headers went out. */
    | RespondAndForward(response: Response, error: Error)

  /** The session an entry point leaves behind and what it does. */
  datatype Flow = Flow(session: Session, step: Step)

  /** How a route's request ends: answered by the route, or handed to Express' error handler. */
  datatype Outcome = Answered(response: Response) | Unhandled(error: Error)

  /** A route run against the Firebase stores. */
  datatype Served = Served(state: State, outcome: Outcome)

  /** `!req.query.client_id || !clients[req.query.client_id]` fails. */
  predicate ClientAccepted(clients: Clients, clientId: Option<string>) {
    clientId.Some? && clientId.value != "" && ClientUrl(clients, clientId.value).Some?
  }

  /** `regenerateSession`: whatever the browser's session held, the next handler sees an empty one. */
  function Regenerate(prior: Session): Session {
    FreshSession
  }

  /** `GET /auth/steam`. */
  function AuthSteam(clients: Clients, prior: Session, q: Query): (f: Flow)
    ensures f.step.Authenticate? <==> ClientAccepted(clients, q.clientId)
    ensures f.step.Authenticate? ==>
      f.step.strategy == "steam" && f.session == Session(q.clientId, Some("steam"), None)
    ensures !f.step.Authenticate? ==> f == Flow(FreshSession, Respond(Send(400, "Invalid client id")))
  {
    var session := Regenerate(prior);
    if !ClientAccepted(clients, q.clientId) then Flow(session, Respond(Send(400, "Invalid client id")))
    else Flow(session.(clientId := q.clientId, provider := Some("steam")), Authenticate("steam"))
  }

  /**
   * `GET /auth/discord`.  `verify` is `verifyIdToken`, settling to the
   * token's uid.  The client and provider are stored before the id token
   * is looked at, so they stay in the session even when it is rejected.
   */
  function AuthDiscord(clients: Clients, prior: Session, q: Query, verify: string -> Result<Uid>): (f: Flow)
    ensures !ClientAccepted(clients, q.clientId) ==>
      f == Flow(FreshSession, Respond(Send(400, "Missing or invalid client_id")))
    ensures ClientAccepted(clients, q.clientId) ==>
      f.session.clientId == q.clientId && f.session.provider == Some("discord")
    ensures ClientAccepted(clients, q.clientId) && (q.idToken.None? || q.idToken.value == "") ==>
      f.step == Respond(Send(403, "Missing id_token")) && f.session.userId.None?
    ensures f.step.Authenticate? <==>
      ClientAccepted(clients, q.clientId) && q.idToken.Some? && q.idToken.value != "" && verify(q.idToken.value).Success?
    ensures f.step.Authenticate? ==>
      f.step.strategy == "discord" && f.session.userId == Some(verify(q.idToken.value).value)
    ensures f.step.RespondAndForward? ==>
      f.step == RespondAndForward(Send(403, "Invalid id_token"), verify(q.idToken.value).error)
    ensures ClientAccepted(clients, q.clientId) && q.idToken.Some? && q.idToken.value != "" &&
            verify(q.idToken.value).Failure? ==>
      f.step == RespondAndForward(Send(403, "Invalid id_token"), verify(q.idToken.value).error) &&
      f.session.userId.None?
  {
    var session := Regenerate(prior);
    if !ClientAccepted(clients, q.clientId) then Flow(session, Respond(Send(400, "Missing or invalid client_id")))
    else
      var session := session.(clientId := q.clientId, provider := Some("discord"));
      if q.idToken.None? || q.idToken.value == "" then Flow(session, Respond(Send(403, "Missing id_token")))
      else
        match verify(q.idToken.value)
        case Success(uid) => Flow(session.(userId := Some(uid)), Authenticate("discord"))
        case Failure(e) => Flow(session, RespondAndForward(Send(403, "Invalid id_token"), e))
  }

  /** Neither entry point lets anything of an earlier session through. */
  lemma EntryPointsForgetPriorSession(clients: Clients, s1: Session, s2: Session, q: Query, verify: string -> Result<Uid>)
    ensures AuthSteam(clients, s1, q) == AuthSteam(clients, s2, q)
    ensures AuthDiscord(clients, s1, q, verify) == AuthDiscord(clients, s2, q, verify)
  {
  }

  /**
   * The promise `redirectWithToken` wraps.  `req.user` is `user`; `mint`
   * is `createCustomToken`, applied to `user.uid`.
   */
  function RedirectWithTokenHandler(clients: Clients, session: Session, user: Option<Props>, mint: Value -> Result<string>): (r: Result<Response>)
    ensures user.None? ==> r == Failure(Error("Invalid user - not logged in?", None))
    ensures user.Some? && ClientUrl(clients, SessionKey(session.clientId)).None? ==>
      r == Failure(Error("Invalid Session: Invalid client_id", None))
    ensures r.Success? ==>
      && user.Some?
      && ClientUrl(clients, SessionKey(session.clientId)).Some?
      && session.provider in {Some("steam"), Some("discord")}
      && var base := clients[SessionKey(session.clientId)] + "?";
         if session.provider == Some("steam") then
           mint(Read(user.value, "uid")).Success? &&
           r.value == Redirect(base + Stringify([("provider", "steam"), ("token", mint(Read(user.value, "uid")).value)]))
         else
           r.value == Redirect(base + Stringify([("provider", "discord")]))
    ensures user.Some? && ClientUrl(clients, SessionKey(session.clientId)).Some? ==>
      (session.provider.None? || session.provider.value == "" ==>
         r == Failure(Error("Invalid Session: Invalid provider.", None)))
      && (session.provider.Some? && session.provider.value !in {"", "steam", "discord"} ==>
         r == Failure(Error("Unhandled provider " + session.provider.value, None)))
    ensures user.Some? && ClientUrl(clients, SessionKey(session.clientId)).Some? &&
            session.provider == Some("steam") && mint(Read(user.value, "uid")).Failure? ==>
      r == Failure(mint(Read(user.value, "uid")).error)
  {
    if user.None? then Failure(Error("Invalid user - not logged in?", None))
    else
      match ClientUrl(clients, SessionKey(session.clientId))
      case None => Failure(Error("Invalid Session: Invalid client_id", None))
      case Some(url) =>
        if session.provider.None? || session.provider.value == "" then
          Failure(Error("Invalid Session: Invalid provider.", None))
        else
          var provider := session.provider.value;
          if provider == "steam" then
            match mint(Read(user.value, "uid"))
            case Failure(e) => Failure(e)
            case Success(token) => Success(Redirect(url + "?" + Stringify([("provider", provider), ("token", token)])))
          else if provider == "discord" then
            Success(Redirect(url + "?" + Stringify([("provider", provider)])))
          else
            Failure(Error("Unhandled provider " + provider, None))
  }

  /** `redirectWithToken(req, res)`: the handler behind `asyncRequestRedirectOnError`. */
  function RedirectWithToken(clients: Clients, session: Session, user: Option<Props>, mint: Value -> Result<string>): Response {
    AsyncRequestRedirectOnError(clients, session, RedirectWithTokenHandler(clients, session, user, mint))
  }

  /**
   * When the token service refuses a Steam user's custom token, the client
   * is sent back with the token service's own error code.
   */
  lemma MintFailureCodeReachesClient(clients: Clients, session: Session, user: Option<Props>, mint: Value -> Result<string>)
    requires user.Some? && ClientUrl(clients, SessionKey(session.clientId)).Some?
    requires session.provider == Some("steam") && mint(Read(user.value, "uid")).Failure?
    ensures RedirectWithToken(clients, session, user, mint) ==
      Redirect(clients[SessionKey(session.clientId)] + "?code=" + ErrorCode(mint(Read(user.value, "uid")).error))
  {
  }

  /**
   * Whatever the session, the user and the token service do, the final
   * step only ever redirects to a registered client's URL, the one the
   * session names.
   */
  lemma RedirectsOnlyToSessionClient(clients: Clients, session: Session, user: Option<Props>, mint: Value -> Result<string>)
    ensures
      var r := RedirectWithToken(clients, session, user, mint);
      r.Redirect? ==>
        var key := SessionKey(session.clientId);
        && key in clients && clients[key] != ""
        && |clients[key]| < |r.location| && r.location[..|clients[key]|] == clients[key]
        && r.location[|clients[key]|] == '?'
  {
    var key := SessionKey(session.clientId);
    var outcome := RedirectWithTokenHandler(clients, session, user, mint);
    var r := RedirectWithToken(clients, session, user, mint);
    if r.Redirect? {
      assert key in clients && clients[key] != "";
      var url := clients[key];
      if outcome.Success? {
        var query := if session.provider == Some("steam")
          then Stringify([("provider", "steam"), ("token", mint(Read(user.value, "uid")).value)])
          else Stringify([("provider", "discord")]);
        assert r.location == url + "?" + query;
        QueryFollowsUrl(url, query);
      } else {
        assert r.location == url + "?" + ("code=" + ErrorCode(outcome.error));
        QueryFollowsUrl(url, "code=" + ErrorCode(outcome.error));
      }
    }
  }

  lemma QueryFollowsUrl(url: string, query: string)
    ensures var loc := url + "?" + query;
      |url| < |loc| && loc[..|url|] == url && loc[|url|] == '?'
  {
    var loc := url + "?" + query;
    assert loc[..|url|] == url;
  }

  /** `GET /fail`: back to the session's client, or to "undefined" when the session has none. */
  function FailRoute(clients: Clients, session: Session): (r: Response)
    ensures SessionKey(session.clientId) in clients ==>
      r == Redirect(clients[SessionKey(session.clientId)] + "?code=oauth_fail")
    ensures SessionKey(session.clientId) !in clients ==> r == Redirect("undefined?code=oauth_fail")
  {
    var key := SessionKey(session.clientId);
    assert "undefined" + "?code=oauth_fail" == "undefined?code=oauth_fail";
    Redirect((if key in clients then clients[key] else "undefined") + "?code=oauth_fail")
  }

  /**
   * `GET /auth/steam/callback`.  `generated` is the uid Firebase mints
   * for a new user; errors of the verify callback reach Express' error
   * handler, not the client.
   */
  function SteamCallback(
    clients: Clients, session: Session, st: State, handshake: Handshake<SteamProfile>,
    generated: Uid, mint: Value -> Result<string>): (s: Served)
    ensures handshake.Denied? ==> s == Served(st, Answered(Redirect("/fail")))
    ensures handshake.Verified? ==>
      var r := SteamController.HandleSteamLogin(st, handshake.identity, generated);
      && s.state == r.state
      && (r.result.Failure? ==> s.outcome == Unhandled(r.result.error))
      && (r.result.Success? ==> s.outcome == Answered(RedirectWithToken(clients, session, Some(r.result.value), mint)))
  {
    match handshake
    case Denied => Served(st, Answered(Redirect("/fail")))
    case Verified(profile) =>
      var r := SteamController.HandleSteamLogin(st, profile, generated);
      match r.result
      case Failure(e) => Served(r.state, Unhandled(e))
      case Success(user) => Served(r.state, Answered(RedirectWithToken(clients, session, Some(user), mint)))
  }

  /**
   * `GET /auth/discord/callback`: the link handler runs as middleware and
   * resolves with `undefined`, so `next()` moves on to the redirect; a
   * rejection goes to Express' error handler.
   */
  function DiscordCallback(
    cfg: Config, session: Session, st: State, handshake: Handshake<DiscordAccount>,
    nowMillis: int, post: string -> Result<DiscordController.TokenResponse>, mint: Value -> Result<string>): (s: Served)
    ensures handshake.Denied? ==> s == Served(st, Answered(Redirect("/fail")))
    ensures handshake.Verified? ==>
      var r := DiscordController.HandleDiscordLogin(cfg.discord, st, session.userId, handshake.identity, nowMillis, post);
      && s.state == r.state
      && (r.result.Failure? ==> s.outcome == Unhandled(r.result.error))
      && (r.result.Success? ==>
            s.outcome == Answered(RedirectWithToken(cfg.clients, session, Some(DiscordUser(handshake.identity)), mint)))
  {
    match handshake
    case Denied => Served(st, Answered(Redirect("/fail")))
    case Verified(account) =>
      var r := DiscordController.HandleDiscordLogin(cfg.discord, st, session.userId, account, nowMillis, post);
      var d := AsyncMiddleware(r.result);
      if Proceeds(d) then Served(r.state, Answered(RedirectWithToken(cfg.clients, session, Some(DiscordUser(account)), mint)))
      else Served(r.state, Unhandled(d.error))
  }

  /** A two-field query string whose keys and values need no escaping. */
  lemma PlainPairs(k1: string, v1: string, k2: string, v2: string)
    requires Plain(k1) && Plain(v1) && Plain(k2) && Plain(v2)
    ensures Stringify([(k1, v1), (k2, v2)]) == k1 + "=" + v1 + "&" + k2 + "=" + v2
  {
    EscapeKeepsUnreserved(k1);
    EscapeKeepsUnreserved(v1);
    EscapeKeepsUnreserved(k2);
    EscapeKeepsUnreserved(v2);
    var parts := Pairs([(k1, v1), (k2, v2)]);
    assert Join(parts, '&') == parts[0] + "&" + Join(parts[1..], '&');
  }

  /** A one-field query string whose key and value need no escaping. */
  lemma PlainPair(k: string, v: string)
    requires Plain(k) && Plain(v)
    ensures Stringify([(k, v)]) == k + "=" + v
  {
    EscapeKeepsUnreserved(k);
    EscapeKeepsUnreserved(v);
  }

  /** The query string of a Steam redirect, for a token that needs no escaping. */
  lemma SteamQuery(token: string)
    requires Plain(token)
    ensures Stringify([("provider", "steam"), ("token", token)]) == "provider=steam&token=" + token
  {
    ProviderWordsArePlain();
    PlainPairs("provider", "steam", "token", token);
    SteamQueryText(token);
  }

  /** The query string of a Discord redirect. */
  lemma DiscordQuery()
    ensures Stringify([("provider", "discord")]) == "provider=discord"
  {
    ProviderWordsArePlain();
    PlainPair("provider", "discord");
  }

  lemma ProviderWordsArePlain()
    ensures Plain("provider") && Plain("steam") && Plain("token") && Plain("discord")
  {
  }

  lemma SteamQueryText(token: string)
    ensures "provider" + "=" + "steam" + "&" + "token" + "=" + token == "provider=steam&token=" + token
  {
  }

  /**
   * The whole Steam sign-in: a registered client starts it, Steam vouches
   * for the player, the user is found or created, and the browser lands on
   * that same client's URL with `provider=steam` and the custom token
   * (a JWT, which needs no escaping).
   */
  lemma SteamSignInReturnsTokenToClient(
    clients: Clients, prior: Session, q: Query, st: State, p: SteamProfile,
    generated: Uid, mint: Value -> Result<string>, token: string)
    requires ClientAccepted(clients, q.clientId)
    requires SteamController.HandleSteamLogin(st, p, generated).result.Success?
    requires mint(Str(SteamController.LoginUid(st.db.profiles, p, generated))) == Success(token)
    requires Plain(token)
    ensures
      var session := AuthSteam(clients, prior, q).session;
      SteamCallback(clients, session, st, Verified(p), generated, mint).outcome ==
        Answered(Redirect(clients[q.clientId.value] + "?provider=steam&token=" + token))
  {
    SteamCallbackRedirects(clients, prior, q, st, p, generated, mint, token);
    SteamQuery(token);
    SteamLocationText(clients[q.clientId.value], token);
  }

  lemma SteamLocationText(url: string, token: string)
    ensures url + "?" + ("provider=steam&token=" + token) == url + "?provider=steam&token=" + token
  {
  }

  lemma SteamCallbackRedirects(
    clients: Clients, prior: Session, q: Query, st: State, p: SteamProfile,
    generated: Uid, mint: Value -> Result<string>, token: string)
    requires ClientAccepted(clients, q.clientId)
    requires SteamController.HandleSteamLogin(st, p, generated).result.Success?
    requires mint(Str(SteamController.LoginUid(st.db.profiles, p, generated))) == Success(token)
    ensures
      var session := AuthSteam(clients, prior, q).session;
      SteamCallback(clients, session, st, Verified(p), generated, mint).outcome ==
        Answered(Redirect(clients[q.clientId.value] + "?" + Stringify([("provider", "steam"), ("token", token)])))
  {
    var session := AuthSteam(clients, prior, q).session;
    var user := SteamController.HandleSteamLogin(st, p, generated).result.value;
    assert Read(user, "uid") == Str(SteamController.LoginUid(st.db.profiles, p, generated));
    assert ClientUrl(clients, SessionKey(session.clientId)) == Some(clients[q.clientId.value]);
    var outcome := RedirectWithTokenHandler(clients, session, Some(user), mint);
    assert outcome.Success?;
  }

  /**
   * The whole Discord link: a registered client starts it with a valid
   * Firebase ID token, Discord vouches for the account, the link is
   * stored, and the browser lands on that client's URL with
   * `provider=discord`.
   */
  lemma DiscordLinkReturnsToClient(
    cfg: Config, prior: Session, q: Query, verify: string -> Result<Uid>, st: State, account: DiscordAccount,
    nowMillis: int, post: string -> Result<DiscordController.TokenResponse>, mint: Value -> Result<string>)
    requires AuthDiscord(cfg.clients, prior, q, verify).step.Authenticate?
    requires DiscordController.HandleDiscordLogin(
      cfg.discord, st, AuthDiscord(cfg.clients, prior, q, verify).session.userId, account, nowMillis, post).result.Success?
    ensures
      var session := AuthDiscord(cfg.clients, prior, q, verify).session;
      DiscordCallback(cfg, session, st, Verified(account), nowMillis, post, mint).outcome ==
        Answered(Redirect(cfg.clients[q.clientId.value] + "?provider=discord"))
  {
    DiscordCallbackRedirects(cfg, prior, q, verify, st, account, nowMillis, post, mint);
    DiscordQuery();
    DiscordLocationText(cfg.clients[q.clientId.value]);
  }

  lemma DiscordLocationText(url: string)
    ensures url + "?" + "provider=discord" == url + "?provider=discord"
  {
  }

  lemma DiscordCallbackRedirects(
    cfg: Config, prior: Session, q: Query, verify: string -> Result<Uid>, st: State, account: DiscordAccount,
    nowMillis: int, post: string -> Result<DiscordController.TokenResponse>, mint: Value -> Result<string>)
    requires AuthDiscord(cfg.clients, prior, q, verify).step.Authenticate?
    requires DiscordController.HandleDiscordLogin(
      cfg.discord, st, AuthDiscord(cfg.clients, prior, q, verify).session.userId, account, nowMillis, post).result.Success?
    ensures
      var session := AuthDiscord(cfg.clients, prior, q, verify).session;
      DiscordCallback(cfg, session, st, Verified(account), nowMillis, post, mint).outcome ==
        Answered(Redirect(cfg.clients[q.clientId.value] + "?" + Stringify([("provider", "discord")])))
  {
    var session := AuthDiscord(cfg.clients, prior, q, verify).session;
    assert session.clientId == q.clientId && session.provider == Some("discord");
    assert ClientUrl(cfg.clients, SessionKey(session.clientId)) == Some(cfg.clients[q.clientId.value]);
    var r := DiscordController.HandleDiscordLogin(cfg.discord, st, session.userId, account, nowMillis, post);
    assert r.result == Success(Undefined);
    DiscordRedirect(cfg.clients, session, DiscordUser(account), mint);
  }

  lemma DiscordRedirect(clients: Clients, session: Session, user: Props, mint: Value -> Result<string>)
    requires session.provider == Some("discord")
    requires ClientUrl(clients, SessionKey(session.clientId)).Some?
    ensures RedirectWithToken(clients, session, Some(user), mint) ==
      Redirect(ClientUrl(clients, SessionKey(session.clientId)).value + "?" + Stringify([("provider", "discord")]))
  {
    var outcome := RedirectWithTokenHandler(clients, session, Some(user), mint);
    assert outcome.Success?;
  }

  /** After a Steam entry point accepted the client, a failed handshake returns the browser to it with `oauth_fail`. */
  lemma FailedHandshakeReturnsToClient(clients: Clients, prior: Session, q: Query)
    requires ClientAccepted(clients, q.clientId)
    ensures FailRoute(clients, AuthSteam(clients, prior, q).session) ==
      Redirect(clients[q.clientId.value] + "?code=oauth_fail")
  {
  }

  /**
   * The controllers the application holds.  The JWT controller is
   * declared, and its routes registered, but the constructor only ever
   * creates the Discord one.
   */
  datatype Controllers = Controllers(discord: DiscordController.DiscordConfig, jwt: Option<JwtController.JwtConfig>)

  function ControllersAsWritten(cfg: Config): (c: Controllers)
    ensures c.discord == cfg.discord
    ensures c.jwt.None?
  {
    Controllers(cfg.discord, None)
  }

  function MakeControllers(cfg: Config): (c: Controllers)
    ensures c.jwt == Some(cfg.jwt) && c.discord == cfg.discord
  {
    Controllers(cfg.discord, Some(cfg.jwt))
  }

  /** `GET /jwt-public`: a method call on the controller field. */
  function JwtPublicRoute(c: Controllers): (o: Outcome)
    ensures c.jwt.None? ==> o.Unhandled?
    ensures c.jwt.Some? ==> o == Answered(JwtController.GetJwtPublicKey(c.jwt.value))
  {
    if c.jwt.None? then Unhandled(Error("Cannot read property 'getJwtPublicKey' of undefined", None))
    else Answered(JwtController.GetJwtPublicKey(c.jwt.value))
  }

  /** As written, every request for the public key fails inside Express. */
  lemma AsWrittenPublicKeyRouteFails(cfg: Config)
    ensures JwtPublicRoute(ControllersAsWritten(cfg)).Unhandled?
  {
  }

  /** With the controller created, the route serves the configured public key. */
  lemma PublicKeyRouteServesConfiguredKey(cfg: Config)
    ensures JwtPublicRoute(MakeControllers(cfg)) == Answered(Json(map["key" := Str(cfg.jwt.jwtPublic)]))
  {
  }
}

=== FILE: change_key_case.dfy ===
/**
 * `changeKeyCase(obj, wanted)` (`src/util/change-key-case.ts`): rebuilds
 * a value as a plain object whose keys, at every depth, are converted to
 * a casing convention.  Arrays nested inside become plain objects keyed
 * by their converted indices.
 */
module ChangeKeyCase {
  import opened Js

  /** The `change-case` function that `wanted` names (`camel`, `snake`, …). */
  type Converter = string -> string

  /**
   * The accumulator of the `reduce` after the entries `fs`: each entry, in
   * order, assigns its converted key, an object value being converted
   * recursively (`isObject(v) && changeKeyCase(v, wanted) || v`; the
   * recursive result is an object, so always truthy).  Two keys that
   * convert alike share the first one's position and keep the last value.
   */
  function Convert(fs: seq<Field>, parent: Value, convert: Converter): (r: seq<Field>)
    requires Below(fs, parent)
    ensures UniqueKeys(r)
    ensures forall x :: x in Keys(r) <==> x in ConvertedKeys(fs, convert)
    decreases parent, |fs|
  {
    if fs == [] then []
    else
      var init := fs[..|fs| - 1];
      var last := fs[|fs| - 1];
      BelowInit(fs, parent);
      var acc := Convert(init, parent, convert);
      var e := ConvertEntry(last.1, parent, convert);
      PutKeepsKeysUnique(acc, convert(last.0), e);
      ConvertedKeysSnoc(fs, convert);
      Put(acc, convert(last.0), e)
  }

  lemma BelowInit(fs: seq<Field>, parent: Value)
    requires Below(fs, parent) && fs != []
    ensures Below(fs[..|fs| - 1], parent)
  {
    forall j | 0 <= j < |fs| - 1 ensures fs[..|fs| - 1][j] == fs[j] {}
  }

  lemma ConvertedKeysSnoc(fs: seq<Field>, convert: Converter)
    requires fs != []
    ensures ConvertedKeys(fs, convert) == ConvertedKeys(fs[..|fs| - 1], convert) + [convert(fs[|fs| - 1].0)]
  {
  }

  /** The input's keys, each converted, in order. */
  function ConvertedKeys(fs: seq<Field>, convert: Converter): (r: seq<string>)
    ensures |r| == |fs| && forall i :: 0 <= i < |fs| ==> r[i] == convert(fs[i].0)
  {
    seq(|fs|, i requires 0 <= i < |fs| => convert(fs[i].0))
  }

  /** The value an entry contributes: converted when it is an object, as is otherwise. */
  function ConvertEntry(v: Value, parent: Value, convert: Converter): (r: Value)
    requires IsObject(v) ==> v < parent
    ensures IsObject(v) ==> r == Obj(Convert(Children(v), v, convert))
    ensures !IsObject(v) ==> r == v
    decreases parent, 0
  {
    if IsObject(v) then Obj(Convert(Children(v), v, convert)) else v
  }

  /** `changeKeyCase(obj, wanted)`: `Object.entries` throws on `null` and `undefined`. */
  function ChangeKeyCase(obj: Value, convert: Converter): (r: Result<Value>)
    ensures r.Failure? <==> obj.Null? || obj.Undefined?
    ensures r.Success? ==> r.value.Obj? && UniqueKeys(r.value.fields)
    ensures IsObject(obj) ==> r == Success(Obj(Convert(Children(obj), obj, convert)))
  {
    match Entries(obj)
    case Failure(e) => Failure(e)
    case Success(fs) => Success(Obj(Convert(fs, obj, convert)))
  }

  /**
   * A nested object's entry is exactly what the recursive call
   * `changeKeyCase(v, wanted)` returns, and it does not depend on which
   * parent the object sits in.
   */
  lemma ConvertEntryIsRecursiveCall(v: Value, p1: Value, p2: Value, convert: Converter)
    requires IsObject(v) && v < p1 && v < p2
    ensures ChangeKeyCase(v, convert) == Success(ConvertEntry(v, p1, convert))
    ensures ConvertEntry(v, p1, convert) == ConvertEntry(v, p2, convert)
  {
  }

  /** Entry `i` is the last one whose key converts to `x`. */
  predicate IsLastWith(fs: seq<Field>, x: string, convert: Converter, i: int) {
    && 0 <= i < |fs|
    && convert(fs[i].0) == x
    && forall j :: i < j < |fs| ==> convert(fs[j].0) != x
  }

  /**
   * The converted object maps each converted key to the converted value of
   * the LAST entry whose key converts to it.
   */
  lemma {:induction false} ConvertKeepsLastValue(fs: seq<Field>, parent: Value, convert: Converter, x: string, i: int)
    requires Below(fs, parent)
    requires IsLastWith(fs, x, convert, i)
    ensures Get(Convert(fs, parent, convert), x) == ConvertEntry(fs[i].1, parent, convert)
    decreases |fs|
  {
    var n := |fs| - 1;
    var init := fs[..n];
    ConvertSnoc(fs, parent, convert);
    var acc := Convert(init, parent, convert);
    var e := ConvertEntry(fs[n].1, parent, convert);
    var k := convert(fs[n].0);
    if i < n {
      assert k != x;
      PutKeepsOthers(acc, k, e, x);
      LastWithInInit(fs, x, convert, i);
      ConvertKeepsLastValue(init, parent, convert, x, i);
      assert init[i] == fs[i];
      assert Get(Convert(fs, parent, convert), x) == Get(acc, x);
      assert Get(acc, x) == ConvertEntry(fs[i].1, parent, convert);
      assert Get(Convert(fs, parent, convert), x) == ConvertEntry(fs[i].1, parent, convert);
    } else {
      assert k == x;
      assert i == n;
      assert Get(Convert(fs, parent, convert), x) == e;
      assert Get(Convert(fs, parent, convert), x) == ConvertEntry(fs[i].1, parent, convert);
    }
  }

  lemma PutKeepsOthers(fs: seq<Field>, k: string, v: Value, x: string)
    requires x != k
    ensures Get(Put(fs, k, v), x) == Get(fs, x)
  {
  }

  /** The last entry is assigned after all the others. */
  lemma ConvertSnoc(fs: seq<Field>, parent: Value, convert: Converter)
    requires Below(fs, parent) && fs != []
    ensures Below(fs[..|fs| - 1], parent)
    ensures Convert(fs, parent, convert) ==
      Put(Convert(fs[..|fs| - 1], parent, convert), convert(fs[|fs| - 1].0), ConvertEntry(fs[|fs| - 1].1, parent, convert))
  {
    BelowInit(fs, parent);
  }

  lemma LastWithInInit(fs: seq<Field>, x: string, convert: Converter, i: int)
    requires IsLastWith(fs, x, convert, i) && i < |fs| - 1
    ensures IsLastWith(fs[..|fs| - 1], x, convert, i)
  {
    var init := fs[..|fs| - 1];
    forall j | i < j < |init| ensures convert(init[j].0) != x {
      assert init[j] == fs[j];
    }
  }

  /** A key that no input key converts to reads as `undefined` in the result. */
  lemma ConvertHasNoOtherKeys(fs: seq<Field>, parent: Value, convert: Converter, x: string)
    requires Below(fs, parent)
    requires forall i :: 0 <= i < |fs| ==> convert(fs[i].0) != x
    ensures Get(Convert(fs, parent, convert), x) == Undefined
  {
    assert x !in ConvertedKeys(fs, convert);
  }

  /** Assigning a key the object does not have appends it. */
  lemma {:induction false} PutNewKeyAppends(fs: seq<Field>, k: string, v: Value)
    requires k !in Keys(fs)
    ensures Put(fs, k, v) == fs + [(k, v)]
    decreases fs
  {
    if fs != [] {
      var rest := fs[1..];
      assert k != fs[0].0 && k !in Keys(rest) by {
        assert Keys(fs) == [fs[0].0] + Keys(rest);
      }
      PutNewKeyAppends(rest, k, v);
      assert Put(fs, k, v) == [fs[0]] + Put(rest, k, v);
      assert [fs[0]] + (rest + [(k, v)]) == fs + [(k, v)];
    }
  }

  /**
   * An object whose keys are distinct and already in the wanted case, and
   * that nests no object, comes back unchanged, in the same order.
   */
  lemma {:induction false} ConvertKeepsConvertedFlatObject(fs: seq<Field>, parent: Value, convert: Converter)
    requires UniqueKeys(fs)
    requires forall i :: 0 <= i < |fs| ==> convert(fs[i].0) == fs[i].0 && !IsObject(fs[i].1)
    ensures Convert(fs, parent, convert) == fs
    decreases |fs|
  {
    if fs != [] {
      var n := |fs| - 1;
      var init := fs[..n];
      ConvertKeepsConvertedFlatObject(init, parent, convert);
      assert fs[n].0 !in Keys(init) by {
        forall i | 0 <= i < n ensures Keys(init)[i] != fs[n].0 {
          assert init[i] == fs[i];
        }
      }
      PutNewKeyAppends(init, fs[n].0, fs[n].1);
      assert init + [fs[n]] == fs;
    }
  }
}

=== FILE: discord_controller.dfy ===
/**
 * Linking a Discord account to the signed-in user
 * (`src/api/discord-controller.ts`), and the refresh-token exchange whose
 * answer is stored as the user's Discord token (the refresh grant of
 * section 6 of RFC 6749).
 */
module DiscordController {
  import opened Js
  import opened Http
  import opened Firebase
  import opened Passport
  import opened UserModel

  /** The Discord OAuth2 application credentials from the configuration. */
  datatype DiscordConfig = DiscordConfig(clientId: string, clientSecret: string)

  /** The token endpoint's answer (section 5.1 of RFC 6749); `expiresIn` is in seconds. */
  datatype TokenResponse = TokenResponse(
    accessToken: string,
    tokenType: string,
    expiresIn: int,
    refreshToken: string,
    scope: string)

  /** What is stored under `tokens/{uid}/discord`. */
  datatype StoredToken = StoredToken(
    accessToken: string,
    expires: int,
    refreshToken: string,
    tokenType: string,
    scope: string)

  /** The form fields of the refresh request, in the order the body lists them. */
  function RefreshRequestFields(cfg: DiscordConfig, refreshToken: string): (fields: seq<(string, string)>)
    ensures |fields| == 4
    ensures fields[0] == ("refresh_token", refreshToken)
    ensures fields[1] == ("client_id", cfg.clientId)
    ensures fields[2] == ("client_secret", cfg.clientSecret)
    ensures fields[3] == ("grant_type", "refresh_token")
  {
    [("refresh_token", refreshToken), ("client_id", cfg.clientId),
     ("client_secret", cfg.clientSecret), ("grant_type", "refresh_token")]
  }

  /** The urlencoded body POSTed to the token endpoint. */
  function RefreshRequestBody(cfg: DiscordConfig, refreshToken: string): string {
    Stringify(RefreshRequestFields(cfg, refreshToken))
  }

  /**
   * The body splits on `&` into exactly the four fields `refresh_token`,
   * `client_id`, `client_secret` and `grant_type`, in that order, each
   * value escaped, whatever characters the token and the credentials
   * contain.
   */
  lemma RefreshRequestCarriesFourFields(cfg: DiscordConfig, refreshToken: string)
    ensures Split(RefreshRequestBody(cfg, refreshToken), '&') ==
      [QueryField("refresh_token", refreshToken),
       QueryField("client_id", cfg.clientId),
       QueryField("client_secret", cfg.clientSecret),
       QueryField("grant_type", "refresh_token")]
  {
    FourFields("refresh_token", refreshToken, "client_id", cfg.clientId,
               "client_secret", cfg.clientSecret, "grant_type", "refresh_token");
  }

  /** Four fields with keys that need no escaping split back into those four fields. */
  lemma FourFields(k1: string, v1: string, k2: string, v2: string, k3: string, v3: string, k4: string, v4: string)
    requires Plain(k1) && Plain(k2) && Plain(k3) && Plain(k4)
    ensures Split(Stringify([(k1, v1), (k2, v2), (k3, v3), (k4, v4)]), '&') ==
      [QueryField(k1, v1), QueryField(k2, v2), QueryField(k3, v3), QueryField(k4, v4)]
  {
    StringifyPlainKeys([(k1, v1), (k2, v2), (k3, v3), (k4, v4)]);
  }

  /**
   * The mapping of lines 33-40 as written: access token, type and scope
   * from the answer, the refresh token that was SENT (not the one the
   * answer carries), and `expires` as `new Date().getTime()`, in
   * milliseconds, plus `expires_in`, which the endpoint gives in seconds.
   */
  function StoredTokenAsWritten(resp: TokenResponse, refreshToken: string, nowMillis: int): (t: StoredToken)
    ensures t.accessToken == resp.accessToken && t.tokenType == resp.tokenType && t.scope == resp.scope
    ensures t.refreshToken == refreshToken
    ensures t.expires - nowMillis == resp.expiresIn
  {
    StoredToken(resp.accessToken, nowMillis + resp.expiresIn, refreshToken, resp.tokenType, resp.scope)
  }

  /**
   * The lifetime Discord grants is a number of seconds; the stored deadline
   * as written lies that many MILLISECONDS after the exchange, so a token
   * valid for a week (604800 s) is recorded as expiring about ten minutes
   * later (604800 ms).
   */
  lemma AsWrittenExpiryUsesWrongUnit(resp: TokenResponse, refreshToken: string, nowMillis: int)
    requires resp.expiresIn == 604800
    ensures StoredTokenAsWritten(resp, refreshToken, nowMillis).expires == nowMillis + 604800
    ensures StoredTokenAsWritten(resp, refreshToken, nowMillis).expires < nowMillis + resp.expiresIn * 1000
  {
  }

  /**
   * The mapping with the unit corrected: the same fields, and the absolute
   * deadline `expires_in` seconds, counted in milliseconds, after the
   * exchange.
   */
  function StoredTokenCorrected(resp: TokenResponse, refreshToken: string, nowMillis: int): (t: StoredToken)
    ensures t.accessToken == resp.accessToken && t.tokenType == resp.tokenType && t.scope == resp.scope
    ensures t.refreshToken == refreshToken
    ensures t.expires - nowMillis == resp.expiresIn * 1000
  {
    StoredToken(resp.accessToken, nowMillis + resp.expiresIn * 1000, refreshToken, resp.tokenType, resp.scope)
  }

  /**
   * The correction touches the deadline only, and the two mappings agree
   * exactly when the granted lifetime is zero.
   */
  lemma CorrectionOnlyMovesExpiry(resp: TokenResponse, refreshToken: string, nowMillis: int)
    ensures StoredTokenCorrected(resp, refreshToken, nowMillis) ==
      StoredTokenAsWritten(resp, refreshToken, nowMillis).(expires := nowMillis + resp.expiresIn * 1000)
    ensures StoredTokenCorrected(resp, refreshToken, nowMillis) == StoredTokenAsWritten(resp, refreshToken, nowMillis)
      <==> resp.expiresIn == 0
  {
  }

  /**
   * With the deadline in milliseconds, the stored token counts as live at
   * an instant exactly when fewer than `expires_in` seconds have passed
   * since the exchange.
   */
  lemma StoredExpiryMatchesLifetime(resp: TokenResponse, refreshToken: string, nowMillis: int, later: int)
    ensures later < StoredTokenCorrected(resp, refreshToken, nowMillis).expires <==> later - nowMillis < resp.expiresIn * 1000
  {
  }

  /**
   * `getDiscordTokenFromRefreshToken(refreshToken)` as written.  `post` is
   * the HTTP exchange with Discord's token endpoint: it receives the form
   * body and settles to the parsed answer.
   */
  function GetDiscordTokenFromRefreshToken(
    cfg: DiscordConfig, refreshToken: string, nowMillis: int, post: string -> Result<TokenResponse>): (r: Result<StoredToken>)
    ensures
      var answer := post(RefreshRequestBody(cfg, refreshToken));
      && (answer.Failure? ==> r == Failure(answer.error))
      && (answer.Success? ==>
            r.Success? && r.value.refreshToken == refreshToken &&
            r.value.accessToken == answer.value.accessToken &&
            r.value.tokenType == answer.value.tokenType && r.value.scope == answer.value.scope &&
            r.value.expires == nowMillis + answer.value.expiresIn)
  {
    var answer := post(RefreshRequestBody(cfg, refreshToken));
    if answer.Failure? then Failure(answer.error)
    else Success(StoredTokenAsWritten(answer.value, refreshToken, nowMillis))
  }

  /** The same exchange with the deadline's unit corrected. */
  function GetDiscordTokenFromRefreshTokenCorrected(
    cfg: DiscordConfig, refreshToken: string, nowMillis: int, post: string -> Result<TokenResponse>): (r: Result<StoredToken>)
    ensures
      var answer := post(RefreshRequestBody(cfg, refreshToken));
      && (answer.Failure? ==> r == Failure(answer.error))
      && (answer.Success? ==>
            r.Success? && r.value.refreshToken == refreshToken &&
            r.value.accessToken == answer.value.accessToken &&
            r.value.tokenType == answer.value.tokenType && r.value.scope == answer.value.scope &&
            r.value.expires == nowMillis + answer.value.expiresIn * 1000)
  {
    var answer := post(RefreshRequestBody(cfg, refreshToken));
    if answer.Failure? then Failure(answer.error)
    else Success(StoredTokenCorrected(answer.value, refreshToken, nowMillis))
  }

  /** The stored token as the JSON object written to the database. */
  function StoredTokenValue(t: StoredToken): Value {
    Obj([("access_token", Str(t.accessToken)), ("expires", Num(t.expires)),
         ("refresh_token", Str(t.refreshToken)), ("token_type", Str(t.tokenType)), ("scope", Str(t.scope))])
  }

  /**
   * The checks before any write: a signed-in user in the session, an Auth
   * record for it, a profile node, and no other Discord account linked.
   * On success it yields the uid and its profile.
   */
  function CheckLink(st: State, userId: Option<string>, account: DiscordAccount): (r: Result<Uid>)
    ensures r.Success? <==>
      && userId.Some? && userId.value != ""
      && st.auth.outage.None? && userId.value in st.auth.users
      && userId.value in st.db.profiles
      && !LinkedToOther(st.db.profiles[userId.value], account.profile)
    ensures r.Success? ==> r.value == userId.value
    ensures userId.Some? && userId.value != "" && st.auth.outage.None? && userId.value in st.auth.users &&
            userId.value in st.db.profiles && LinkedToOther(st.db.profiles[userId.value], account.profile) ==>
      r == Failure(AlreadyLinkedError)
  {
    if userId.None? || userId.value == "" then Failure(Error("Invalid Session: userId missing", None))
    else
      var uid := userId.value;
      match GetUser(st.auth, uid)
      case Failure(e) => Failure(e)
      case Success(_) =>
        match Once(st.db.profiles, uid)
        case None => Failure(Error("User " + uid + " has no profile!", None))
        case Some(profile) =>
          if LinkedToOther(profile, account.profile) then Failure(AlreadyLinkedError)
          else Success(uid)
  }

  /**
   * The writes of a link that passed the checks: `profiles/{uid}/discord`
   * is written first; `tokens/{uid}/discord` only once the exchange
   * succeeded.
   */
  function Link(st: State, uid: Uid, account: DiscordAccount, token: Result<StoredToken>): (r: Run<Value>)
    ensures r.state.auth == st.auth
    ensures r.state.db.profiles == Update(st.db.profiles, uid, map["discord" := account.profile])
    ensures token.Failure? ==> r.state.db.tokens == st.db.tokens && r.result == Failure(token.error)
    ensures token.Success? ==>
      r.result == Success(Undefined) &&
      r.state.db.tokens == Update(st.db.tokens, uid, map["discord" := StoredTokenValue(token.value)])
  {
    var profiles' := Update(st.db.profiles, uid, map["discord" := account.profile]);
    match token
    case Failure(e) => Run(State(st.auth, st.db.(profiles := profiles')), Failure(e))
    case Success(t) =>
      var tokens' := Update(st.db.tokens, uid, map["discord" := StoredTokenValue(t)]);
      Run(State(st.auth, Db(profiles', tokens')), Success(Undefined))
  }

  /**
   * The async function `handleDiscordLogin` wraps.  The profile write is
   * issued first; the token exchange is awaited while the `Promise.all`
   * array is being built, so a failed exchange leaves the profile written
   * and `tokens/{uid}` untouched.  It resolves with `undefined`.
   */
  function HandleDiscordLogin(
    cfg: DiscordConfig, st: State, userId: Option<string>, account: DiscordAccount,
    nowMillis: int, post: string -> Result<TokenResponse>): (r: Run<Value>)
    ensures CheckLink(st, userId, account).Failure? ==>
      r == Run(st, Failure(CheckLink(st, userId, account).error))
    ensures r.result.Success? ==> r.result.value == Undefined
    ensures CheckLink(st, userId, account).Success? ==>
      r == Link(st, userId.value, account, GetDiscordTokenFromRefreshToken(cfg, account.refreshToken, nowMillis, post))
  {
    match CheckLink(st, userId, account)
    case Failure(e) => Run(st, Failure(e))
    case Success(uid) => Link(st, uid, account, GetDiscordTokenFromRefreshToken(cfg, account.refreshToken, nowMillis, post))
  }

  /**
   * As written, a completed link stores under `tokens/{uid}/discord` a
   * deadline of the exchange instant plus the raw `expires_in`: a week-long
   * grant is recorded as running out 604800 ms after the link.
   */
  lemma AsWrittenLinkStoresRawExpiry(
    cfg: DiscordConfig, st: State, userId: Option<string>, account: DiscordAccount,
    nowMillis: int, post: string -> Result<TokenResponse>, resp: TokenResponse)
    requires CheckLink(st, userId, account).Success?
    requires post(RefreshRequestBody(cfg, account.refreshToken)) == Success(resp)
    ensures
      var r := HandleDiscordLogin(cfg, st, userId, account, nowMillis, post);
      && r.result == Success(Undefined)
      && r.state.db.tokens[userId.value]["discord"] == StoredTokenValue(StoredTokenAsWritten(resp, account.refreshToken, nowMillis))
      && StoredTokenAsWritten(resp, account.refreshToken, nowMillis).expires == nowMillis + resp.expiresIn
  {
    var t := GetDiscordTokenFromRefreshToken(cfg, account.refreshToken, nowMillis, post);
    assert t == Success(StoredTokenAsWritten(resp, account.refreshToken, nowMillis));
    LinkWritesToken(st, userId.value, account, t.value);
  }

  /**
   * With the corrected exchange, the stored deadline of a link is the
   * exchange instant plus `expires_in` seconds.
   */
  lemma CorrectedLinkStoresLifetime(
    cfg: DiscordConfig, st: State, uid: Uid, account: DiscordAccount,
    nowMillis: int, post: string -> Result<TokenResponse>, resp: TokenResponse)
    requires post(RefreshRequestBody(cfg, account.refreshToken)) == Success(resp)
    ensures
      var r := Link(st, uid, account, GetDiscordTokenFromRefreshTokenCorrected(cfg, account.refreshToken, nowMillis, post));
      && r.result == Success(Undefined)
      && r.state.db.tokens[uid]["discord"] == StoredTokenValue(StoredTokenCorrected(resp, account.refreshToken, nowMillis))
      && StoredTokenCorrected(resp, account.refreshToken, nowMillis).expires == nowMillis + resp.expiresIn * 1000
  {
    var t := GetDiscordTokenFromRefreshTokenCorrected(cfg, account.refreshToken, nowMillis, post);
    assert t == Success(StoredTokenCorrected(resp, account.refreshToken, nowMillis));
    LinkWritesToken(st, uid, account, t.value);
  }

  lemma LinkWritesToken(st: State, uid: Uid, account: DiscordAccount, t: StoredToken)
    ensures Link(st, uid, account, Success(t)).result == Success(Undefined)
    ensures Link(st, uid, account, Success(t)).state.db.tokens[uid]["discord"] == StoredTokenValue(t)
  {
    var children := map["discord" := StoredTokenValue(t)];
    assert "discord" in children && children["discord"] == StoredTokenValue(t);
  }

  /**
   * Linking the same Discord account again, with the same exchange answer
   * at the same instant, passes the guard and leaves the stores exactly as
   * the first link left them.
   */
  lemma {:induction false} RelinkIsIdempotent(
    cfg: DiscordConfig, st: State, userId: Option<string>, account: DiscordAccount,
    nowMillis: int, post: string -> Result<TokenResponse>)
    requires HandleDiscordLogin(cfg, st, userId, account, nowMillis, post).result.Success?
    ensures
      var once := HandleDiscordLogin(cfg, st, userId, account, nowMillis, post);
      var twice := HandleDiscordLogin(cfg, once.state, userId, account, nowMillis, post);
      twice.result.Success? && twice.state == once.state
  {
    var once := HandleDiscordLogin(cfg, st, userId, account, nowMillis, post);
    var uid := userId.value;
    var children := map["discord" := account.profile];
    assert CheckLink(st, userId, account).Success?;
    var profiles' := Update(st.db.profiles, uid, children);
    assert Read(profiles'[uid], "discord") == account.profile;
    assert !LinkedToOther(profiles'[uid], account.profile);
    assert CheckLink(once.state, userId, account).Success?;
    var t := GetDiscordTokenFromRefreshToken(cfg, account.refreshToken, nowMillis, post).value;
    UpdateIdempotent(st.db.profiles, uid, children);
    UpdateIdempotent(st.db.tokens, uid, map["discord" := StoredTokenValue(t)]);
  }
}

=== FILE: firebase.dfy ===
/**
 * The two Firebase services the bridge talks to, as abstract stores:
 * the Auth user directory (`admin.auth()`) and the Realtime Database
 * trees `profiles/{uid}` and `tokens/{uid}` (`admin.database()`).
 * Every call the handlers make becomes a pure function on these stores.
 */
module Firebase {
  import opened Js

  type Uid = string

  /** The attributes Auth stores for a user, as far as the bridge sets or reads them. */
  datatype Account = Account(
    email: Option<string>,
    emailVerified: bool,
    displayName: Option<string>,
    photoURL: Option<string>,
    disabled: bool)

  /** A `UserRecord` as the Admin SDK returns it: the uid and its attributes. */
  datatype UserRecord = UserRecord(uid: Uid, account: Account)

  /**
   * The Auth user directory.  When `outage` holds an error, every call
   * rejects with it (a network failure, a quota error, a revoked
   * credential): this is how errors other than "user not found" arise.
   */
  datatype Auth = Auth(users: map<Uid, Account>, outage: Option<Error>)

  /** The Realtime Database: the children of `profiles/{uid}` and of `tokens/{uid}`. */
  datatype Db = Db(profiles: map<Uid, Props>, tokens: map<Uid, Props>)

  datatype State = State(auth: Auth, db: Db)

  /** A handler run: the stores afterwards, and what the handler's promise settled to. */
  datatype Run<+T> = Run(state: State, result: Result<T>)

  const UserNotFoundCode := "auth/user-not-found"
  const UidExistsCode := "auth/uid-already-exists"
  const InvalidPhotoUrlCode := "auth/invalid-photo-url"
  const EmailExistsCode := "auth/email-already-exists"

  /** `admin.auth().getUser(uid)`: rejects with `auth/user-not-found` when there is no such user. */
  function GetUser(a: Auth, uid: Uid): (r: Result<UserRecord>)
    ensures r.Success? <==> a.outage.None? && uid in a.users
    ensures r.Success? ==> r.value == UserRecord(uid, a.users[uid])
    ensures r.Failure? && a.outage.None? ==> r.error.code == Some(UserNotFoundCode)
  {
    if a.outage.Some? then Failure(a.outage.value)
    else if uid in a.users then Success(UserRecord(uid, a.users[uid]))
    else Failure(Error("There is no user record corresponding to the provided identifier.", Some(UserNotFoundCode)))
  }

  /** The properties passed to `createUser`; an absent `uid` asks Firebase to generate one. */
  datatype CreateRequest = CreateRequest(
    uid: Option<Uid>,
    email: Option<string>,
    emailVerified: bool,
    displayName: string,
    photoURL: Option<string>,
    disabled: bool)

  /** The uid a create request ends up with. */
  function CreatedUid(req: CreateRequest, generated: Uid): Uid {
    if req.uid.Some? then req.uid.value else generated
  }

  /** Auth keeps e-mail addresses unique: some user already holds `email`. */
  predicate EmailTaken(a: Auth, email: Option<string>) {
    email.Some? && exists u :: u in a.users && a.users[u].email == email
  }

  /**
   * `admin.auth().createUser(request)`.  `generated` is the uid Firebase
   * would mint when the request names none.  Both the uid and the e-mail
   * address must be unused.
   */
  function CreateUser(a: Auth, generated: Uid, req: CreateRequest): (r: Result<(Auth, UserRecord)>)
    ensures r.Success? <==>
      a.outage.None? && CreatedUid(req, generated) !in a.users && !EmailTaken(a, req.email)
    ensures a.outage.None? && CreatedUid(req, generated) !in a.users && EmailTaken(a, req.email) ==>
      r.Failure? && r.error.code == Some(EmailExistsCode)
    ensures r.Success? ==>
      var (a', u) := r.value;
      && u.uid == CreatedUid(req, generated)
      && u.account == Account(req.email, req.emailVerified, Some(req.displayName), req.photoURL, req.disabled)
      && a'.users == a.users[u.uid := u.account]
      && a'.outage == a.outage
  {
    var uid := CreatedUid(req, generated);
    if a.outage.Some? then Failure(a.outage.value)
    else if uid in a.users then Failure(Error("The user with the provided uid already exists.", Some(UidExistsCode)))
    else if EmailTaken(a, req.email) then
      Failure(Error("The email address is already in use by another account.", Some(EmailExistsCode)))
    else
      var acct := Account(req.email, req.emailVerified, Some(req.displayName), req.photoURL, req.disabled);
      Success((Auth(a.users[uid := acct], a.outage), UserRecord(uid, acct)))
  }

  /**
   * The properties passed to `updateUser`.  `photoURL` is whatever value
   * the caller put there: `undefined` leaves the photo alone, `null`
   * deletes it, a string replaces it.
   */
  datatype UpdateRequest = UpdateRequest(displayName: string, photoURL: Value)

  predicate PhotoArgumentValid(v: Value) {
    v.Str? || v.Null? || v.Undefined?
  }

  /**
   * `admin.auth().updateUser(uid, request)`.  The Admin SDK validates the
   * request before sending anything: a `photoURL` that is neither a string
   * nor `null`/`undefined` is rejected with `auth/invalid-photo-url`, even
   * when the service is unreachable.
   */
  function UpdateUser(a: Auth, uid: Uid, req: UpdateRequest): (r: Result<(Auth, UserRecord)>)
    ensures r.Success? <==> a.outage.None? && PhotoArgumentValid(req.photoURL) && uid in a.users
    ensures !PhotoArgumentValid(req.photoURL) ==> r.Failure? && r.error.code == Some(InvalidPhotoUrlCode)
    ensures PhotoArgumentValid(req.photoURL) && a.outage.Some? ==> r == Failure(a.outage.value)
    ensures r.Success? ==>
      var (a', u) := r.value;
      && u.uid == uid
      && u.account == a.users[uid].(displayName := Some(req.displayName), photoURL := NewPhoto(a.users[uid].photoURL, req.photoURL))
      && a'.users == a.users[uid := u.account]
      && a'.outage == a.outage
  {
    if !PhotoArgumentValid(req.photoURL) then
      Failure(Error("The photoURL field must be a valid URL.", Some(InvalidPhotoUrlCode)))
    else if a.outage.Some? then Failure(a.outage.value)
    else if uid !in a.users then
      Failure(Error("There is no user record corresponding to the provided identifier.", Some(UserNotFoundCode)))
    else
      var acct := a.users[uid].(displayName := Some(req.displayName), photoURL := NewPhoto(a.users[uid].photoURL, req.photoURL));
      Success((Auth(a.users[uid := acct], a.outage), UserRecord(uid, acct)))
  }

  function NewPhoto(current: Option<string>, requested: Value): Option<string> {
    match requested
    case Str(s) => Some(s)
    case Null => None
    case _ => current
  }

  /** The children stored at `tree/{uid}`; a node that does not exist has none. */
  function Node(tree: map<Uid, Props>, uid: Uid): Props {
    if uid in tree then tree[uid] else map[]
  }

  /** `ref(tree/{uid}).once("value")`, read as the stored record when the node exists. */
  function Once(tree: map<Uid, Props>, uid: Uid): Option<Props> {
    if uid in tree then Some(tree[uid]) else None
  }

  /**
   * `ref(tree/{uid}).update(children)`: a shallow update that sets each
   * listed child and leaves every other child and every other node as it was.
   */
  function Update(tree: map<Uid, Props>, uid: Uid, children: Props): (r: map<Uid, Props>)
    ensures r.Keys == tree.Keys + {uid}
    ensures r[uid].Keys == Node(tree, uid).Keys + children.Keys
    ensures forall k :: k in children ==> r[uid][k] == children[k]
    ensures forall k :: k in Node(tree, uid) && k !in children ==> r[uid][k] == tree[uid][k]
    ensures forall u :: u in tree && u != uid ==> r[u] == tree[u]
  {
    tree[uid := Node(tree, uid) + children]
  }

  /** A shallow update that rewrites the values a node already holds changes nothing. */
  lemma UpdateIdempotent(tree: map<Uid, Props>, uid: Uid, children: Props)
    ensures Update(Update(tree, uid, children), uid, children) == Update(tree, uid, children)
  {
    var once := Update(tree, uid, children);
    assert Node(once, uid) + children == once[uid];
  }

  /** The order in which a query hands back keys that tie on the ordered child: lexicographic. */
  predicate KeyLe(a: string, b: string) {
    a == [] || (b != [] && (a[0] < b[0] || (a[0] == b[0] && KeyLe(a[1..], b[1..]))))
  }

  lemma {:induction false} KeyLeReflexive(a: string)
    ensures KeyLe(a, a)
    decreases a
  {
    if a != [] {
      KeyLeReflexive(a[1..]);
    }
  }

  lemma {:induction false} KeyLeTotal(a: string, b: string)
    ensures KeyLe(a, b) || KeyLe(b, a)
    decreases a
  {
    if a != [] && b != [] && a[0] == b[0] {
      KeyLeTotal(a[1..], b[1..]);
    }
  }

  lemma {:induction false} KeyLeAntisymmetric(a: string, b: string)
    requires KeyLe(a, b) && KeyLe(b, a)
    ensures a == b
    decreases a
  {
    if a != [] && b != [] {
      KeyLeAntisymmetric(a[1..], b[1..]);
      assert a == [a[0]] + a[1..] && b == [b[0]] + b[1..];
    }
  }

  lemma {:induction false} KeyLeTransitive(a: string, b: string, c: string)
    requires KeyLe(a, b) && KeyLe(b, c)
    ensures KeyLe(a, c)
    decreases a
  {
    if a != [] && b != [] && c != [] && a[0] == b[0] && b[0] == c[0] {
      KeyLeTransitive(a[1..], b[1..], c[1..]);
    }
  }

  predicate IsFirst(k: string, keys: set<string>) {
    k in keys && forall j :: j in keys ==> KeyLe(k, j)
  }

  lemma {:induction false} FirstExists(keys: set<string>)
    requires keys != {}
    ensures exists k :: IsFirst(k, keys)
    decreases keys
  {
    var x :| x in keys;
    KeyLeReflexive(x);
    if keys == {x} {
      assert IsFirst(x, keys);
    } else {
      FirstExists(keys - {x});
      var m :| IsFirst(m, keys - {x});
      KeyLeTotal(x, m);
      if KeyLe(x, m) {
        forall j | j in keys ensures KeyLe(x, j) {
          if j != x { KeyLeTransitive(x, m, j); }
        }
        assert IsFirst(x, keys);
      } else {
        assert IsFirst(m, keys);
      }
    }
  }

  /** The first of a non-empty set of keys in query order. */
  function FirstKey(keys: set<string>): (k: string)
    requires keys != {}
    ensures k in keys
    ensures forall j :: j in keys ==> KeyLe(k, j)
  {
    FirstExists(keys);
    forall a, b | IsFirst(a, keys) && IsFirst(b, keys) ensures a == b {
      KeyLeAntisymmetric(a, b);
    }
    var k :| IsFirst(k, keys);
    k
  }
}

=== FILE: firebase_config.dfy ===
/**
 * `parse(tree)` of `json-to-firebase-config.js`: flattens a JSON
 * configuration into the `path.to.key="value"` arguments of
 * `firebase functions:config:set`, every key segment in param-case.
 */
module FirebaseConfig {
  import opened Js
  import opened Http

  /** `changeCase.paramCase`. */
  type Converter = string -> string

  /** `key="value"`: the value is written with `String(v)`, nothing is escaped. */
  function Assignment(key: string, leaf: Value): string {
    key + "=\"" + ToDisplay(leaf) + "\""
  }

  /** `prefix + "." + child` for every line a nested object produced. */
  function Prefixed(prefix: string, lines: seq<string>): (r: seq<string>)
    ensures |r| == |lines|
    ensures forall i :: 0 <= i < |r| ==> r[i] == prefix + "." + lines[i]
  {
    seq(|lines|, i requires 0 <= i < |lines| => prefix + "." + lines[i])
  }

  /**
   * The lines for the properties `fs` of a node, in `Object.keys` order:
   * an object value contributes its own lines behind the converted key,
   * any other value one assignment.
   */
  function ParseEntries(fs: seq<Field>, parent: Value, paramCase: Converter): seq<string>
    requires Below(fs, parent)
    decreases parent, |fs|
  {
    if fs == [] then []
    else
      var (k, v) := fs[0];
      BelowTail(fs, parent);
      (if IsObject(v) then Prefixed(paramCase(k), ParseEntries(Children(v), v, paramCase))
       else [Assignment(paramCase(k), v)])
      + ParseEntries(fs[1..], parent, paramCase)
  }

  /** Dropping the first property keeps the rest below the same parent. */
  lemma BelowTail(fs: seq<Field>, parent: Value)
    requires Below(fs, parent) && fs != []
    ensures Below(fs[1..], parent)
  {
    forall i | 0 <= i < |fs[1..]| && IsObject(fs[1..][i].1) ensures fs[1..][i].1 < parent {
      assert fs[1..][i] == fs[i + 1];
    }
  }

  /** `parse(json)`: `Object.keys` throws on `null`. */
  function Parse(tree: Value, paramCase: Converter): (r: Result<seq<string>>)
    ensures r.Failure? <==> tree.Null? || tree.Undefined?
  {
    match Entries(tree)
    case Failure(e) => Failure(e)
    case Success(fs) => Success(ParseEntries(fs, tree, paramCase))
  }

  /** A leaf of the configuration tree: the keys leading to it and its value. */
  datatype Leaf = Leaf(path: seq<string>, value: Value)

  /** The leaf under `key` for each leaf of a nested object. */
  function Nest(key: string, leaves: seq<Leaf>): (r: seq<Leaf>)
    ensures |r| == |leaves|
    ensures forall i :: 0 <= i < |r| ==> r[i] == Leaf([key] + leaves[i].path, leaves[i].value)
  {
    seq(|leaves|, i requires 0 <= i < |leaves| => Leaf([key] + leaves[i].path, leaves[i].value))
  }

  /**
   * Every non-object value below the properties `fs`, with its full key
   * path, depth first in key order; an empty object has no leaves.
   */
  function Leaves(fs: seq<Field>, parent: Value): (r: seq<Leaf>)
    requires Below(fs, parent)
    ensures forall i :: 0 <= i < |r| ==> |r[i].path| > 0 && !IsObject(r[i].value)
    decreases parent, |fs|
  {
    if fs == [] then []
    else
      var (k, v) := fs[0];
      BelowTail(fs, parent);
      (if IsObject(v) then Nest(k, Leaves(Children(v), v)) else [Leaf([k], v)])
      + Leaves(fs[1..], parent)
  }

  /** A path written with `.` between its param-cased segments. */
  function PathText(path: seq<string>, paramCase: Converter): string {
    Join(seq(|path|, i requires 0 <= i < |path| => paramCase(path[i])), '.')
  }

  /** The argument a leaf should become. */
  function Render(l: Leaf, paramCase: Converter): string {
    Assignment(PathText(l.path, paramCase), l.value)
  }

  lemma PathTextCons(key: string, path: seq<string>, paramCase: Converter)
    requires |path| > 0
    ensures PathText([key] + path, paramCase) == paramCase(key) + "." + PathText(path, paramCase)
  {
    var whole := seq(|[key] + path|, i requires 0 <= i < |[key] + path| => paramCase(([key] + path)[i]));
    var tail := seq(|path|, i requires 0 <= i < |path| => paramCase(path[i]));
    assert whole[1..] == tail;
  }

  /** `lines` are the rendered `leaves`, one for one and in order. */
  predicate RendersAs(lines: seq<string>, leaves: seq<Leaf>, paramCase: Converter) {
    |lines| == |leaves| && forall i :: 0 <= i < |lines| ==> lines[i] == Render(leaves[i], paramCase)
  }

  lemma RendersAsConcat(a: seq<string>, b: seq<Leaf>, c: seq<string>, d: seq<Leaf>, paramCase: Converter)
    requires RendersAs(a, b, paramCase) && RendersAs(c, d, paramCase)
    ensures RendersAs(a + c, b + d, paramCase)
  {
    forall i | 0 <= i < |a + c| ensures (a + c)[i] == Render((b + d)[i], paramCase) {
      if i >= |a| {
        assert (a + c)[i] == c[i - |a|] && (b + d)[i] == d[i - |a|];
      }
    }
  }

  /**
   * The flattening is exactly one argument per leaf, in order: the leaf's
   * key path, param-cased and dotted, then `="value"`.
   */
  lemma {:induction false} ParseRendersLeaves(fs: seq<Field>, parent: Value, paramCase: Converter)
    requires Below(fs, parent)
    ensures RendersAs(ParseEntries(fs, parent, paramCase), Leaves(fs, parent), paramCase)
    decreases parent, |fs|
  {
    if fs != [] {
      var (k, v) := fs[0];
      BelowTail(fs, parent);
      ParseRendersLeaves(fs[1..], parent, paramCase);
      var restLines := ParseEntries(fs[1..], parent, paramCase);
      var restLeaves := Leaves(fs[1..], parent);
      if IsObject(v) {
        ParseRendersLeaves(Children(v), v, paramCase);
        var lines := ParseEntries(Children(v), v, paramCase);
        var leaves := Leaves(Children(v), v);
        NestRenders(k, lines, leaves, paramCase);
        var head := Prefixed(paramCase(k), lines);
        var headLeaves := Nest(k, leaves);
        RendersAsConcat(head, headLeaves, restLines, restLeaves, paramCase);
        assert ParseEntries(fs, parent, paramCase) == head + restLines;
        assert Leaves(fs, parent) == headLeaves + restLeaves;
      } else {
        assert PathText([k], paramCase) == paramCase(k);
        var head := [Assignment(paramCase(k), v)];
        var headLeaves := [Leaf([k], v)];
        RendersAsConcat(head, headLeaves, restLines, restLeaves, paramCase);
        assert ParseEntries(fs, parent, paramCase) == head + restLines;
        assert Leaves(fs, parent) == headLeaves + restLeaves;
      }
    }
  }

  /** The lines of a nested object, prefixed by its key, render the leaves nested under that key. */
  lemma NestRenders(k: string, lines: seq<string>, leaves: seq<Leaf>, paramCase: Converter)
    requires RendersAs(lines, leaves, paramCase)
    requires forall i :: 0 <= i < |leaves| ==> |leaves[i].path| > 0
    ensures RendersAs(Prefixed(paramCase(k), lines), Nest(k, leaves), paramCase)
  {
    var head := Prefixed(paramCase(k), lines);
    var headLeaves := Nest(k, leaves);
    forall i | 0 <= i < |headLeaves| ensures head[i] == Render(headLeaves[i], paramCase) {
      PathTextCons(k, leaves[i].path, paramCase);
    }
  }

  /** For an object or array, `parse` succeeds with one argument per leaf of the whole tree. */
  lemma ParseFlattensTree(tree: Value, paramCase: Converter)
    requires IsObject(tree)
    ensures Parse(tree, paramCase).Success?
    ensures RendersAs(Parse(tree, paramCase).value, Leaves(Children(tree), tree), paramCase)
  {
    ParseRendersLeaves(Children(tree), tree, paramCase);
  }

  /** The entries of two runs of properties lie below a parent exactly when each run does. */
  lemma BelowConcat(a: seq<Field>, b: seq<Field>, parent: Value)
    ensures Below(a + b, parent) <==> Below(a, parent) && Below(b, parent)
  {
    if Below(a + b, parent) {
      forall i | 0 <= i < |a| && IsObject(a[i].1) ensures a[i].1 < parent {
        assert (a + b)[i] == a[i];
      }
      forall i | 0 <= i < |b| && IsObject(b[i].1) ensures b[i].1 < parent {
        assert (a + b)[|a| + i] == b[i];
      }
    }
  }

  /** The lines of a non-empty run: those of its first property, then those of the rest. */
  lemma ParseEntriesUnfold(fs: seq<Field>, parent: Value, paramCase: Converter)
    requires Below(fs, parent) && fs != []
    ensures Below([fs[0]], parent) && Below(fs[1..], parent)
    ensures ParseEntries(fs, parent, paramCase) == ParseEntries([fs[0]], parent, paramCase) + ParseEntries(fs[1..], parent, paramCase)
  {
    BelowTail(fs, parent);
    var one := [fs[0]];
    assert one[0] == fs[0] && one[1..] == [];
  }

  /** Two runs with the same first property and the same lines after it have the same lines. */
  lemma SameHeadSameLines(x: seq<Field>, y: seq<Field>, parent: Value, paramCase: Converter)
    requires x != [] && y != [] && x[0] == y[0]
    requires Below(x, parent) && Below(y, parent) && Below(x[1..], parent) && Below(y[1..], parent)
    requires ParseEntries(x[1..], parent, paramCase) == ParseEntries(y[1..], parent, paramCase)
    ensures ParseEntries(x, parent, paramCase) == ParseEntries(y, parent, paramCase)
  {
    ParseEntriesUnfold(x, parent, paramCase);
    ParseEntriesUnfold(y, parent, paramCase);
    assert [x[0]] == [y[0]];
  }

  /**
   * A property holding an empty object yields no line, wherever it sits
   * among its siblings: the output is that of the siblings alone.
   */
  lemma {:induction false} EmptyObjectsVanish(fs1: seq<Field>, key: string, fs2: seq<Field>, parent: Value, paramCase: Converter)
    requires Below(fs1 + [(key, Obj([]))] + fs2, parent)
    ensures Below(fs1 + fs2, parent)
    ensures ParseEntries(fs1 + [(key, Obj([]))] + fs2, parent, paramCase) == ParseEntries(fs1 + fs2, parent, paramCase)
    decreases |fs1|
  {
    var e: seq<Field> := [(key, Obj([]))];
    var x := fs1 + e + fs2;
    var y := fs1 + fs2;
    BelowConcat(fs1 + e, fs2, parent);
    BelowConcat(fs1, e, parent);
    BelowConcat(fs1, fs2, parent);
    if fs1 == [] {
      assert x == e + fs2 && y == fs2;
      EmptyHeadVanishes(key, fs2, parent, paramCase);
    } else {
      assert x[0] == y[0] == fs1[0];
      assert x[1..] == fs1[1..] + e + fs2;
      assert y[1..] == fs1[1..] + fs2;
      BelowTail(fs1, parent);
      BelowConcat(fs1[1..] + e, fs2, parent);
      BelowConcat(fs1[1..], e, parent);
      EmptyObjectsVanish(fs1[1..], key, fs2, parent, paramCase);
      SameHeadSameLines(x, y, parent, paramCase);
    }
  }

  /** A leading property holding an empty object yields no line. */
  lemma EmptyHeadVanishes(key: string, fs: seq<Field>, parent: Value, paramCase: Converter)
    requires Below([(key, Obj([]))] + fs, parent) && Below(fs, parent)
    ensures ParseEntries([(key, Obj([]))] + fs, parent, paramCase) == ParseEntries(fs, parent, paramCase)
  {
    var x := [(key, Obj([]))] + fs;
    assert x[0] == (key, Obj([])) && x[1..] == fs;
    assert ParseEntries(Children(Obj([])), Obj([]), paramCase) == [];
  }
}

=== FILE: http.dfy ===
/**
 * What the handlers see of Express and Node: the per-browser session
 * record, the response a handler produces, and Node's `querystring`
 * encoding used to build redirect targets and form bodies.
 */
module Http {
  import opened Js

  /**
   * The properties this service keeps in `req.session`.  `None` is a
   * property that was never assigned (it reads as `undefined`).
   */
  datatype Session = Session(clientId: Option<string>, provider: Option<string>, userId: Option<string>)

  /** The session `req.session.regenerate` hands to the next handler. */
  const FreshSession := Session(None, None, None)

  datatype Response =
      /** `res.redirect(location)`: HTTP 302 with a Location header. */
    | Redirect(location: string)
      /** `res.status(status).send(body)`: a complete response. */
    | Send(status: nat, body: string)
      /** `res.status(status).write(body)`: the body is written but the response is never ended. */
    | Write(status: nat, body: string)
      /** `res.json(body)`: HTTP 200 with a JSON body. */
    | Json(payload: Props)

  /** Characters `querystring.escape` leaves alone. */
  predicate Unreserved(c: char) {
    || 'A' <= c <= 'Z' || 'a' <= c <= 'z' || '0' <= c <= '9'
    || c == '-' || c == '.' || c == '_' || c == '~'
    || c == '!' || c == '\'' || c == '(' || c == ')' || c == '*'
  }

  function HexDigit(d: nat): (c: char)
    requires d < 16
    ensures Unreserved(c)
  {
    "0123456789ABCDEF"[d]
  }

  function PercentByte(b: nat): (s: string)
    requires b < 256
    ensures |s| == 3 && s[0] == '%' && Unreserved(s[1]) && Unreserved(s[2])
  {
    ['%', HexDigit(b / 16), HexDigit(b % 16)]
  }

  /** The UTF-8 bytes of one code point. */
  function Utf8(c: char): (bs: seq<nat>)
    ensures 1 <= |bs| <= 4 && forall i :: 0 <= i < |bs| ==> bs[i] < 256
  {
    var cp := c as int;
    if cp < 0x80 then [cp]
    else if cp < 0x800 then [0xC0 + cp / 0x40, 0x80 + cp % 0x40]
    else if cp < 0x1_0000 then [0xE0 + cp / 0x1000, 0x80 + (cp / 0x40) % 0x40, 0x80 + cp % 0x40]
    else [0xF0 + cp / 0x4_0000, 0x80 + (cp / 0x1000) % 0x40, 0x80 + (cp / 0x40) % 0x40, 0x80 + cp % 0x40]
  }

  function PercentBytes(bs: seq<nat>): (s: string)
    requires forall i :: 0 <= i < |bs| ==> bs[i] < 256
    ensures forall i :: 0 <= i < |s| ==> s[i] == '%' || Unreserved(s[i])
  {
    if bs == [] then [] else PercentByte(bs[0]) + PercentBytes(bs[1..])
  }

  /** `querystring.escape`: percent-encodes the UTF-8 bytes of every reserved character. */
  function Escape(s: string): (r: string)
    ensures forall i :: 0 <= i < |r| ==> r[i] == '%' || Unreserved(r[i])
  {
    if s == [] then []
    else (if Unreserved(s[0]) then [s[0]] else PercentBytes(Utf8(s[0]))) + Escape(s[1..])
  }

  /** Text made only of characters `Escape` leaves alone. */
  predicate Plain(s: string) {
    forall i :: 0 <= i < |s| ==> Unreserved(s[i])
  }

  /** Text made only of unreserved characters, such as a provider name or a JWT, passes through `Escape` unchanged. */
  lemma {:induction false} EscapeKeepsUnreserved(s: string)
    requires Plain(s)
    ensures Escape(s) == s
    decreases s
  {
    if s != [] {
      EscapeKeepsUnreserved(s[1..]);
      assert [s[0]] + s[1..] == s;
    }
  }

  function Join(parts: seq<string>, sep: char): string {
    if |parts| == 0 then ""
    else if |parts| == 1 then parts[0]
    else parts[0] + [sep] + Join(parts[1..], sep)
  }

  /** `String.prototype.split` with a one-character separator. */
  function Split(s: string, sep: char): (r: seq<string>)
    ensures |r| > 0
  {
    if s == [] then [""]
    else if s[0] == sep then [""] + Split(s[1..], sep)
    else
      var rest := Split(s[1..], sep);
      [[s[0]] + rest[0]] + rest[1..]
  }

  /** One `key=value` field of a query string whose key is plain text and whose value is escaped. */
  function QueryField(key: string, value: string): string {
    key + "=" + Escape(value)
  }

  /** `querystring.stringify`: `key=value` pairs, both sides escaped, joined by `&`. */
  function Stringify(pairs: seq<(string, string)>): string {
    Join(Pairs(pairs), '&')
  }

  function Pairs(pairs: seq<(string, string)>): (r: seq<string>)
    ensures |r| == |pairs|
    ensures forall i :: 0 <= i < |r| ==> r[i] == Escape(pairs[i].0) + "=" + Escape(pairs[i].1)
  {
    seq(|pairs|, i requires 0 <= i < |pairs| => Escape(pairs[i].0) + "=" + Escape(pairs[i].1))
  }

  lemma {:induction false} SplitWithoutSeparator(a: string, sep: char)
    requires sep !in a
    ensures Split(a, sep) == [a]
    decreases a
  {
    if a != [] {
      SplitWithoutSeparator(a[1..], sep);
      assert [a[0]] + a[1..] == a;
    }
  }

  lemma {:induction false} SplitAtSeparator(a: string, sep: char, b: string)
    requires sep !in a
    ensures Split(a + [sep] + b, sep) == [a] + Split(b, sep)
    decreases a
  {
    if a == [] {
      assert a + [sep] + b == [sep] + b;
    } else {
      SplitAtSeparator(a[1..], sep, b);
      assert (a + [sep] + b)[1..] == a[1..] + [sep] + b;
      assert [a[0]] + a[1..] == a;
    }
  }

  /** Splitting a joined list on its separator gives the parts back, when no part contains the separator. */
  lemma {:induction false} SplitJoin(parts: seq<string>, sep: char)
    requires |parts| > 0
    requires forall i :: 0 <= i < |parts| ==> sep !in parts[i]
    ensures Split(Join(parts, sep), sep) == parts
    decreases parts
  {
    if |parts| == 1 {
      SplitWithoutSeparator(parts[0], sep);
    } else {
      SplitJoin(parts[1..], sep);
      SplitAtSeparator(parts[0], sep, Join(parts[1..], sep));
      assert [parts[0]] + parts[1..] == parts;
    }
  }

  /**
   * A query string built by `Stringify` splits on `&` back into exactly one
   * `key=value` field per pair, in order: escaping never yields `&`.
   */
  lemma StringifyFields(pairs: seq<(string, string)>)
    requires |pairs| > 0
    ensures Split(Stringify(pairs), '&') == Pairs(pairs)
  {
    var parts := Pairs(pairs);
    forall i | 0 <= i < |parts| ensures '&' !in parts[i] {
      var k, v := Escape(pairs[i].0), Escape(pairs[i].1);
      assert parts[i] == k + "=" + v;
      assert forall j :: 0 <= j < |parts[i]| ==> parts[i][j] == '%' || parts[i][j] == '=' || Unreserved(parts[i][j]) by {
        forall j | 0 <= j < |parts[i]|
          ensures parts[i][j] == '%' || parts[i][j] == '=' || Unreserved(parts[i][j])
        {
          if j < |k| { assert parts[i][j] == k[j]; }
          else if j > |k| { assert parts[i][j] == v[j - |k| - 1]; }
        }
      }
    }
    SplitJoin(parts, '&');
  }

  /**
   * When every key is plain text, the fields of the query string are each
   * key as written, `=`, and the escaped value.
   */
  lemma StringifyPlainKeys(pairs: seq<(string, string)>)
    requires |pairs| > 0
    requires forall i :: 0 <= i < |pairs| ==> Plain(pairs[i].0)
    ensures Split(Stringify(pairs), '&') == seq(|pairs|, i requires 0 <= i < |pairs| => QueryField(pairs[i].0, pairs[i].1))
  {
    StringifyFields(pairs);
    forall i | 0 <= i < |pairs| ensures Escape(pairs[i].0) == pairs[i].0 {
      EscapeKeepsUnreserved(pairs[i].0);
    }
  }
}

=== FILE: js.dfy ===
/**
 * The slice of JavaScript value semantics the login bridge relies on:
 * dynamically typed values, objects as ordered property lists, property
 * reads and writes, truthiness, `Object.entries`, and the string
 * conversion used by `+` on strings.  Numbers are integers here.
 */
module Js {

  datatype Option<+T> = None | Some(value: T)

  /** A thrown JavaScript `Error`: its message and its optional `code` property. */
  datatype Error = Error(message: string, code: Option<string>)

  /** A settled promise or a completed call: a value, or the error it threw. */
  datatype Result<+T> = Success(value: T) | Failure(error: Error)

  datatype Value =
    | Undefined
    | Null
    | Bool(b: bool)
    | Num(n: int)
    | Str(s: string)
    | Arr(items: seq<Value>)
    | Obj(fields: seq<Field>)

  /** One own property of an object, in insertion order. */
  type Field = (string, Value)

  /** An object whose key order plays no role (a database node, `req.user`). */
  type Props = map<string, Value>

  /** `x !== null && typeof x === "object"`: arrays and plain objects. */
  predicate IsObject(v: Value) {
    v.Obj? || v.Arr?
  }

  /** JavaScript truthiness. */
  predicate Truthy(v: Value) {
    match v
    case Undefined => false
    case Null => false
    case Bool(b) => b
    case Num(n) => n != 0
    case Str(s) => s != ""
    case Arr(_) => true
    case Obj(_) => true
  }

  /** A property read on a map-shaped object: a missing key reads as `undefined`. */
  function Read(p: Props, k: string): Value {
    if k in p then p[k] else Undefined
  }

  /** Decimal digits of a natural number, as `String(n)` writes them. */
  function NatToString(n: nat): (s: string)
    ensures |s| > 0
    ensures forall i :: 0 <= i < |s| ==> '0' <= s[i] <= '9'
    decreases n
  {
    if n < 10 then [Digit(n)] else NatToString(n / 10) + [Digit(n % 10)]
  }

  function Digit(d: nat): (c: char)
    requires d < 10
    ensures '0' <= c <= '9'
  {
    "0123456789"[d]
  }

  function IntToString(n: int): string {
    if n < 0 then "-" + NatToString(-n) else NatToString(n)
  }

  /** The property name `Object.entries` gives the element at index `i` of an array or string. */
  function IndexKey(i: nat): string {
    NatToString(i)
  }

  /**
   * `Object.entries(v)` (and `Object.keys`, which lists the same keys):
   * own enumerable properties in order.  It throws on `null` and
   * `undefined`; booleans and numbers have no own properties.
   */
  function Entries(v: Value): (r: Result<seq<Field>>)
    ensures r.Failure? <==> v.Null? || v.Undefined?
    ensures IsObject(v) ==> r.Success? && r.value == Children(v)
    ensures r.Success? && !IsObject(v) ==> forall i :: 0 <= i < |r.value| ==> r.value[i].1.Str?
  {
    match v
    case Undefined => Failure(Error("Cannot convert undefined or null to object", None))
    case Null => Failure(Error("Cannot convert undefined or null to object", None))
    case Str(s) => Success(seq(|s|, i requires 0 <= i < |s| => (IndexKey(i), Str([s[i]]))))
    case Bool(_) => Success([])
    case Num(_) => Success([])
    case _ => Success(Children(v))
  }

  /** The entries of an object or array: array elements are keyed by their index. */
  function Children(v: Value): (r: seq<Field>)
    ensures |r| == 0 <==> !IsObject(v) || v == Obj([]) || v == Arr([])
    ensures forall i :: 0 <= i < |r| ==> r[i].1 < v
  {
    match v
    case Obj(fs) => fs
    case Arr(xs) => seq(|xs|, i requires 0 <= i < |xs| => (IndexKey(i), xs[i]))
    case _ => []
  }

  /**
   * Every object among the entries lies structurally below `parent`: what
   * a walk over nested objects needs to terminate.
   */
  ghost predicate Below(fs: seq<Field>, parent: Value) {
    forall i :: 0 <= i < |fs| && IsObject(fs[i].1) ==> fs[i].1 < parent
  }

  function Keys(fs: seq<Field>): (r: seq<string>)
    ensures |r| == |fs| && forall i :: 0 <= i < |fs| ==> r[i] == fs[i].0
  {
    if fs == [] then [] else [fs[0].0] + Keys(fs[1..])
  }

  /** A plain object never lists the same key twice. */
  predicate UniqueKeys(fs: seq<Field>) {
    forall i, j :: 0 <= i < j < |fs| ==> fs[i].0 != fs[j].0
  }

  /** `o[k]` on an object: the value stored under `k`, or `undefined`. */
  function Get(fs: seq<Field>, k: string): (r: Value)
    ensures k !in Keys(fs) ==> r == Undefined
    ensures UniqueKeys(fs) ==> forall i :: 0 <= i < |fs| && fs[i].0 == k ==> r == fs[i].1
  {
    if fs == [] then Undefined
    else if fs[0].0 == k then fs[0].1
    else Get(fs[1..], k)
  }

  /** `v.k` for any value: only plain objects carry named properties here. */
  function Prop(v: Value, k: string): Value {
    if v.Obj? then Get(v.fields, k) else Undefined
  }

  /**
   * `o[k] = v`: an existing property keeps its position and takes the new
   * value; a new property is appended.
   */
  function Put(fs: seq<Field>, k: string, v: Value): (r: seq<Field>)
    ensures forall x :: x in Keys(r) <==> x in Keys(fs) || x == k
    ensures Get(r, k) == v
    ensures forall x :: x != k ==> Get(r, x) == Get(fs, x)
  {
    if fs == [] then [(k, v)]
    else if fs[0].0 == k then
      assert Keys([(k, v)] + fs[1..]) == [k] + Keys(fs[1..]);
      [(k, v)] + fs[1..]
    else
      var rest := Put(fs[1..], k, v);
      assert Keys([fs[0]] + rest) == [fs[0].0] + Keys(rest);
      [fs[0]] + rest
  }

  /** Assignment never introduces a duplicate key. */
  lemma {:induction false} PutKeepsKeysUnique(fs: seq<Field>, k: string, v: Value)
    requires UniqueKeys(fs)
    ensures UniqueKeys(Put(fs, k, v))
    decreases fs
  {
    if fs == [] {
    } else if fs[0].0 == k {
      var r := Put(fs, k, v);
      assert r == [(k, v)] + fs[1..];
      assert forall i :: 0 <= i < |r| ==> r[i].0 == fs[i].0;
    } else {
      UniqueTail(fs);
      var rest := Put(fs[1..], k, v);
      PutKeepsKeysUnique(fs[1..], k, v);
      assert fs[0].0 !in Keys(rest);
      UniqueCons(fs[0], rest);
    }
  }

  lemma UniqueTail(fs: seq<Field>)
    requires fs != [] && UniqueKeys(fs)
    ensures UniqueKeys(fs[1..]) && fs[0].0 !in Keys(fs[1..])
  {
    forall i | 0 <= i < |fs[1..]| ensures Keys(fs[1..])[i] != fs[0].0 {
      assert fs[1..][i] == fs[i + 1];
    }
  }

  lemma UniqueCons(f: Field, rest: seq<Field>)
    requires UniqueKeys(rest) && f.0 !in Keys(rest)
    ensures UniqueKeys([f] + rest)
  {
    var r := [f] + rest;
    forall i, j | 0 <= i < j < |r| ensures r[i].0 != r[j].0 {
      if i == 0 {
        assert r[j] == rest[j - 1];
        assert Keys(rest)[j - 1] == rest[j - 1].0;
      } else {
        assert r[i] == rest[i - 1] && r[j] == rest[j - 1];
      }
    }
  }

  /** `String(v)`, which `"" + v` applies to every non-string operand. */
  function ToDisplay(v: Value): string
    decreases v
  {
    match v
    case Undefined => "undefined"
    case Null => "null"
    case Bool(b) => if b then "true" else "false"
    case Num(n) => IntToString(n)
    case Str(s) => s
    case Arr(xs) => JoinElements(xs)
    case Obj(_) => "[object Object]"
  }

  /** `Array.prototype.join(",")`: `null` and `undefined` elements print as "". */
  function JoinElements(xs: seq<Value>): string
    decreases xs
  {
    if xs == [] then ""
    else
      var head := if xs[0].Null? || xs[0].Undefined? then "" else ToDisplay(xs[0]);
      if |xs| == 1 then head else head + "," + JoinElements(xs[1..])
  }
}

=== FILE: jwt_controller.dfy ===
/**
 * The long-lived token service (`src/api/jwt-controller.ts`): exchanges a
 * Firebase ID token for an RS256 JWT valid for thirty days, and publishes
 * the key that verifies it.
 */
module JwtController {
  import opened Js
  import opened Http
  import opened Utils

  /** The key pair from the configuration: the PEM signing key and the PEM public key. */
  datatype JwtConfig = JwtConfig(jwtSecret: string, jwtPublic: string)

  /** What `verifyIdToken` yields: the Firebase uid and the token's audience. */
  datatype DecodedIdToken = DecodedIdToken(uid: string, aud: string)

  const Issuer := "firebase-steam-login"
  /** The `algorithm` sign option: the header's `alg`. */
  const Algorithm := "RS256"
  /** `expiresIn: "30d"`, in the seconds a JWT `exp` claim counts. */
  const ThirtyDays := 30 * 24 * 60 * 60

  /**
   * The claims `jwt.sign` writes for the payload `{ uid }` and the sign
   * options: `iat` is the current time in whole seconds, `exp` lies the
   * `expiresIn` span after it.
   */
  datatype Claims = Claims(uid: string, iat: int, exp: int, iss: string, sub: string, aud: string)

  function SignedClaims(t: DecodedIdToken, nowMillis: int): (c: Claims)
    ensures c.uid == t.uid && c.sub == t.uid && c.aud == t.aud && c.iss == Issuer
    ensures c.iat * 1000 <= nowMillis < c.iat * 1000 + 1000
    ensures c.exp - c.iat == ThirtyDays
  {
    var iat := nowMillis / 1000;
    Claims(t.uid, iat, iat + ThirtyDays, Issuer, t.uid, t.aud)
  }

  /**
   * The promise `generateLonglivedToken` wraps, with `admin` in scope.
   * `verify` is `verifyIdToken`; `sign` is `jwt.sign`, given the claims,
   * the signing key and the algorithm; the `exp` read back with
   * `jwt.decode` is the one that was signed.
   */
  function LonglivedToken(
    cfg: JwtConfig, body: Props, nowMillis: int,
    verify: Value -> Result<DecodedIdToken>, sign: (Claims, string, string) -> Result<string>): (r: Result<Response>)
    ensures !Truthy(Read(body, "idToken")) ==> r == Failure(Error("Missing id token", None))
    ensures Truthy(Read(body, "idToken")) && verify(Read(body, "idToken")).Failure? ==>
      r == Failure(verify(Read(body, "idToken")).error)
    ensures r.Success? ==>
      var t := verify(Read(body, "idToken")).value;
      var c := SignedClaims(t, nowMillis);
      && sign(c, cfg.jwtSecret, Algorithm).Success?
      && r.value == Json(map["token" := Str(sign(c, cfg.jwtSecret, Algorithm).value), "expires" := Num(c.exp * 1000)])
    ensures Truthy(Read(body, "idToken")) && verify(Read(body, "idToken")).Success? ==>
      var c := SignedClaims(verify(Read(body, "idToken")).value, nowMillis);
      var signed := sign(c, cfg.jwtSecret, Algorithm);
      && (signed.Failure? ==> r == Failure(signed.error))
      && (signed.Success? ==> r == Success(Json(map["token" := Str(signed.value), "expires" := Num(c.exp * 1000)])))
  {
    var idToken := Read(body, "idToken");
    if !Truthy(idToken) then Failure(Error("Missing id token", None))
    else
      match verify(idToken)
      case Failure(e) => Failure(e)
      case Success(t) =>
        var c := SignedClaims(t, nowMillis);
        match sign(c, cfg.jwtSecret, Algorithm)
        case Failure(e) => Failure(e)
        case Success(token) => Success(Json(map["token" := Str(token), "expires" := Num(c.exp * 1000)]))
  }

  /**
   * The handler as written: the file never imports `admin`, so once the
   * id token is present, evaluating `admin.app()` throws a ReferenceError.
   */
  function LonglivedTokenAsWritten(body: Props): (r: Result<Response>)
    ensures r.Failure?
    ensures Truthy(Read(body, "idToken")) ==> r.error.message == "admin is not defined"
  {
    if !Truthy(Read(body, "idToken")) then Failure(Error("Missing id token", None))
    else Failure(Error("admin is not defined", None))
  }

  /**
   * As written, no request is ever answered with a token: a request that
   * carries an id token gets a 500 naming the missing `admin` binding.
   */
  lemma AsWrittenNeverIssuesToken(body: Props)
    ensures AsyncRequest(LonglivedTokenAsWritten(body)).Send?
    ensures Truthy(Read(body, "idToken")) ==>
      AsyncRequest(LonglivedTokenAsWritten(body)) == Send(500, "Error admin is not defined")
  {
    assert "Error " + "admin is not defined" == "Error admin is not defined";
  }

  /** `generateLonglivedToken(req, res)` with `admin` in scope: the handler behind `asyncRequest`. */
  function GenerateLonglivedToken(
    cfg: JwtConfig, body: Props, nowMillis: int,
    verify: Value -> Result<DecodedIdToken>, sign: (Claims, string, string) -> Result<string>): (r: Response)
    ensures !Truthy(Read(body, "idToken")) ==> r == Send(500, "Error Missing id token")
    ensures r.Json? || r.Send?
    ensures r.Send? ==> r.status == 500
    ensures Truthy(Read(body, "idToken")) && verify(Read(body, "idToken")).Success? ==>
      var c := SignedClaims(verify(Read(body, "idToken")).value, nowMillis);
      var signed := sign(c, cfg.jwtSecret, Algorithm);
      && (signed.Failure? ==> r == Send(500, "Error " + signed.error.message))
      && (signed.Success? ==> r == Json(map["token" := Str(signed.value), "expires" := Num(c.exp * 1000)]))
  {
    assert "Error " + "Missing id token" == "Error Missing id token";
    AsyncRequest(LonglivedToken(cfg, body, nowMillis, verify, sign))
  }

  /**
   * A token handed out expires thirty days after the request, rounded down
   * to the second, and `expires` is given in milliseconds.
   */
  lemma ExpiresThirtyDaysLater(
    cfg: JwtConfig, body: Props, nowMillis: int,
    verify: Value -> Result<DecodedIdToken>, sign: (Claims, string, string) -> Result<string>)
    requires GenerateLonglivedToken(cfg, body, nowMillis, verify, sign).Json?
    ensures
      var payload := GenerateLonglivedToken(cfg, body, nowMillis, verify, sign).payload;
      && "expires" in payload && payload["expires"].Num?
      && nowMillis + ThirtyDays * 1000 - 999 <= payload["expires"].n <= nowMillis + ThirtyDays * 1000
      && payload["expires"].n % 1000 == 0
  {
    var r := LonglivedToken(cfg, body, nowMillis, verify, sign);
    assert r.Success?;
  }

  /**
   * With `admin` in scope the handler does issue tokens: a request whose id
   * token verifies and whose claims sign is answered with that signed token
   * and an `expires` thirty days after the request, in ms.
   */
  lemma CorrectedIssuesToken(
    cfg: JwtConfig, body: Props, nowMillis: int,
    verify: Value -> Result<DecodedIdToken>, sign: (Claims, string, string) -> Result<string>)
    requires Truthy(Read(body, "idToken")) && verify(Read(body, "idToken")).Success?
    requires sign(SignedClaims(verify(Read(body, "idToken")).value, nowMillis), cfg.jwtSecret, Algorithm).Success?
    ensures
      var r := GenerateLonglivedToken(cfg, body, nowMillis, verify, sign);
      var c := SignedClaims(verify(Read(body, "idToken")).value, nowMillis);
      && r.Json?
      && r.payload["token"] == Str(sign(c, cfg.jwtSecret, Algorithm).value)
      && nowMillis + ThirtyDays * 1000 - 999 <= r.payload["expires"].n <= nowMillis + ThirtyDays * 1000
  {
  }

  /** `getJwtPublicKey(req, res)`: the public key as `{ key }`. */
  function GetJwtPublicKey(cfg: JwtConfig): Response {
    Json(map["key" := Str(cfg.jwtPublic)])
  }
}

=== FILE: legacy_controller.dfy ===
/**
 * The legacy Steam handler (`src/controller.ts`): the same find-or-create
 * on the Steam id as the standalone login, then the Steam record is
 * written under `profiles/{steam id}` without waiting for the write, and
 * the request is answered with `{ token }`.  The handler is not wrapped:
 * a rejection leaves the request unanswered.
 */
module LegacyController {
  import opened Js
  import opened Http
  import opened Firebase
  import opened Passport
  import Login

  /**
   * Lines 31-37 after the Auth step: the profile write under the STEAM id
   * is issued before the custom token for the Auth uid is awaited, so it
   * takes place even when minting the token fails.
   */
  function Respond(st: State, p: SteamProfile, found: Result<(Auth, UserRecord)>, mint: Value -> Result<string>): (r: Run<Response>)
    ensures found.Failure? ==> r == Run(st, Failure(found.error))
    ensures found.Success? ==>
      && r.state.auth == found.value.0
      && r.state.db.profiles == Update(st.db.profiles, p.id, Login.SteamChild(p))
      && r.state.db.tokens == st.db.tokens
      && (mint(Str(found.value.1.uid)).Failure? ==> r.result == Failure(mint(Str(found.value.1.uid)).error))
      && (mint(Str(found.value.1.uid)).Success? ==>
            r.result == Success(Json(map["token" := Str(mint(Str(found.value.1.uid)).value)])))
  {
    match found
    case Failure(e) => Run(st, Failure(e))
    case Success((a', u)) =>
      var st' := State(a', st.db.(profiles := Update(st.db.profiles, p.id, Login.SteamChild(p))));
      match mint(Str(u.uid))
      case Failure(e) => Run(st', Failure(e))
      case Success(token) => Run(st', Success(Json(map["token" := Str(token)])))
  }

  /** `handleSteamLogin(req, res)` as written; `generated` is the uid Firebase mints. */
  function HandleSteamLoginAsWritten(st: State, p: SteamProfile, generated: Uid, mint: Value -> Result<string>): (r: Run<Response>)
    ensures r.result.Success? ==> st.auth.outage.None?
    ensures Login.FindOrCreateAsWritten(st.auth, p, generated).Failure? ==> r.state == st && r.result.Failure?
    ensures Login.FindOrCreateAsWritten(st.auth, p, generated).Success? ==>
      && r.state.db.profiles == Update(st.db.profiles, p.id, Login.SteamChild(p))
      && r.state.auth == Login.FindOrCreateAsWritten(st.auth, p, generated).value.0
      && var uid := Login.AsWrittenUid(st.auth, p, generated);
         r.state.auth.users == st.auth.users[uid := r.state.auth.users[uid]]
  {
    Respond(st, p, Login.FindOrCreateAsWritten(st.auth, p, generated), mint)
  }

  /** `handleSteamLogin(req, res)` with the user kept under its Steam id. */
  function HandleSteamLogin(st: State, p: SteamProfile, mint: Value -> Result<string>): (r: Run<Response>)
    ensures st.auth.outage.Some? || |p.photos| < 3 ==> r.state == st && r.result.Failure?
    ensures st.auth.outage.None? && |p.photos| >= 3 ==>
      && r.state.auth.users.Keys == st.auth.users.Keys + {p.id}
      && r.state.db.profiles == Update(st.db.profiles, p.id, Login.SteamChild(p))
      && r.state.auth == Login.FindOrCreate(st.auth, p).value.0
      && r.state.auth.users == st.auth.users[p.id := r.state.auth.users[p.id]]
      && r.result == (if mint(Str(p.id)).Success? then Success(Json(map["token" := Str(mint(Str(p.id)).value)]))
                      else Failure(mint(Str(p.id)).error))
  {
    var found := Login.FindOrCreate(st.auth, p);
    if found.Failure? then Respond(st, p, found, mint)
    else
      assert found.value.1.uid == p.id;
      Respond(st, p, found, mint)
  }

  /**
   * As written, a first login creates the user under the uid Firebase
   * mints and answers with that uid's token, but stores the Steam record
   * under the Steam id, a node no Auth user owns; the user's own profile
   * node is left as it was.
   */
  lemma AsWrittenProfileMissesUser(st: State, p: SteamProfile, generated: Uid, mint: Value -> Result<string>, token: string)
    requires st.auth.outage.None? && p.id !in st.auth.users && |p.photos| >= 3
    requires generated !in st.auth.users && generated != p.id
    requires mint(Str(generated)) == Success(token)
    ensures
      var r := HandleSteamLoginAsWritten(st, p, generated, mint);
      && r.result == Success(Json(map["token" := Str(token)]))
      && generated in r.state.auth.users && p.id !in r.state.auth.users
      && r.state.db.profiles[p.id]["steam"] == p.json
      && Node(r.state.db.profiles, generated) == Node(st.db.profiles, generated)
  {
    var found := Login.FindOrCreateAsWritten(st.auth, p, generated);
    assert found.Success? && found.value.1.uid == generated;
  }

  /**
   * With the user kept under its Steam id, the Steam record lands in the
   * profile node of the very user whose token is handed out.
   */
  lemma ProfileFollowsUser(st: State, p: SteamProfile, mint: Value -> Result<string>, token: string)
    requires st.auth.outage.None? && |p.photos| >= 3
    requires mint(Str(p.id)) == Success(token)
    ensures
      var r := HandleSteamLogin(st, p, mint);
      && r.result == Success(Json(map["token" := Str(token)]))
      && p.id in r.state.auth.users
      && r.state.db.profiles[p.id]["steam"] == p.json
  {
  }

  /**
   * As written, once a user exists under the Steam id, every login is
   * rejected by `updateUser` over the photo object: no token is issued and
   * nothing is written.
   */
  lemma AsWrittenExistingUserGetsNoToken(st: State, p: SteamProfile, generated: Uid, mint: Value -> Result<string>)
    requires st.auth.outage.None? && p.id in st.auth.users && |p.photos| >= 3
    ensures
      var r := HandleSteamLoginAsWritten(st, p, generated, mint);
      r.state == st && r.result.Failure? && r.result.error.code == Some(InvalidPhotoUrlCode)
  {
    Login.AsWrittenUpdateRejectsPhotoObject(st, p, generated);
    assert !PhotoArgumentValid(AvatarFull(p));
  }

  /**
   * With the URL passed instead of the photo object, a returning user gets
   * a token for the same uid and no new user is created.
   */
  lemma ExistingUserGetsToken(st: State, p: SteamProfile, mint: Value -> Result<string>, token: string)
    requires st.auth.outage.None? && p.id in st.auth.users && |p.photos| >= 3
    requires mint(Str(p.id)) == Success(token)
    ensures
      var r := HandleSteamLogin(st, p, mint);
      && r.result == Success(Json(map["token" := Str(token)]))
      && r.state.auth.users.Keys == st.auth.users.Keys
  {
  }
}

=== FILE: login.dfy ===
/**
 * The login handlers of the standalone server (`src/login.ts`).  Here a
 * Steam user is looked up with the Steam id as its Auth uid, the Discord
 * link stores the two tokens the strategy obtained, and a failed request
 * falls back to a 500 that is written but never ended.
 */
module Login {
  import opened Js
  import opened Http
  import opened Firebase
  import opened Passport
  import opened UserModel
  import Utils
  import DiscordController
  import App

  /**
   * `asyncRequest` of this file: a resolved handler keeps its response; a
   * rejected one goes back to the session's registered client with the
   * error code, or gets a 500 whose response is never ended.
   */
  function AsyncRequest(clients: Utils.Clients, session: Session, outcome: Result<Response>): (r: Response)
    ensures outcome.Success? ==> r == outcome.value
    ensures outcome.Failure? && Utils.ClientUrl(clients, Utils.SessionKey(session.clientId)).None? ==>
      r == Write(500, "Error logging in")
  {
    match outcome
    case Success(resp) => resp
    case Failure(e) =>
      var url := Utils.ClientUrl(clients, Utils.SessionKey(session.clientId));
      if url.Some? then Redirect(url.value + "?code=" + Utils.ErrorCode(e)) else Write(500, "Error logging in")
  }

  /**
   * This wrapper and `asyncRequestRedirectOnError` of `src/utils.ts` give
   * the same answer, except that where the latter sends its 500 this one
   * only writes it.
   */
  lemma AsyncRequestAgreesWithUtils(clients: Utils.Clients, session: Session, outcome: Result<Response>)
    ensures
      var mine := AsyncRequest(clients, session, outcome);
      var theirs := Utils.AsyncRequestRedirectOnError(clients, session, outcome);
      mine == theirs || (theirs == Send(500, "Error logging in") && mine == Write(500, "Error logging in"))
    ensures AsyncRequest(clients, session, outcome).Redirect? <==>
      Utils.AsyncRequestRedirectOnError(clients, session, outcome).Redirect?
  {
  }

  /**
   * `getUser(steamId)` with "user not found" caught: the user when it
   * exists, none when Auth reports it missing, and any other rejection
   * passed on.
   */
  function FindUser(a: Auth, uid: Uid): (r: Result<Option<UserRecord>>)
    ensures a.outage.None? && uid in a.users ==> r == Success(Some(UserRecord(uid, a.users[uid])))
    ensures a.outage.None? && uid !in a.users ==> r == Success(None)
    ensures a.outage.Some? ==>
      if a.outage.value.code == Some(UserNotFoundCode) then r == Success(None) else r == Failure(a.outage.value)
  {
    match GetUser(a, uid)
    case Success(u) => Success(Some(u))
    case Failure(e) => if e.code == Some(UserNotFoundCode) then Success(None) else Failure(e)
  }

  /** The children this file's Steam login writes into `profiles/{uid}`: the Steam record only. */
  function SteamChild(p: SteamProfile): Props {
    map["steam" := p.json]
  }

  /**
   * Lines 46-67 as written: the user is looked up with the Steam id as
   * uid, but created without one, so Firebase mints a uid of its own; an
   * existing user is updated with the photo OBJECT `photos[2]`.
   */
  function FindOrCreateAsWritten(a: Auth, p: SteamProfile, generated: Uid): (r: Result<(Auth, UserRecord)>)
    ensures a.outage.None? && p.id !in a.users ==>
      r == (if |p.photos| < 3 then Failure(AvatarFullUrl(p).error)
            else CreateUser(a, generated, CreateRequest(None, None, false, p.displayName, p.photos[2].value, false)))
    ensures a.outage.None? && p.id in a.users ==>
      r == UpdateUser(a, p.id, UpdateRequest(p.displayName, AvatarFull(p)))
    ensures r.Success? ==>
      && r.value.1.uid == AsWrittenUid(a, p, generated)
      && r.value.0.users == a.users[r.value.1.uid := r.value.1.account]
  {
    match FindUser(a, p.id)
    case Failure(e) => Failure(e)
    case Success(found) =>
      if found.Some? then UpdateUser(a, p.id, UpdateRequest(p.displayName, AvatarFull(p)))
      else
        match AvatarFullUrl(p)
        case Failure(e) => Failure(e)
        case Success(url) => CreateUser(a, generated, CreateRequest(None, None, false, p.displayName, url, false))
  }

  /**
   * Lines 46-67 as evidently intended: the user is created under its Steam
   * id, and an existing one gets the avatar URL `photos[2].value`.
   */
  function FindOrCreate(a: Auth, p: SteamProfile): (r: Result<(Auth, UserRecord)>)
    ensures r.Success? <==> a.outage.None? && |p.photos| >= 3
    ensures r.Success? ==>
      var (a', u) := r.value;
      && u.uid == p.id
      && a'.users == a.users[p.id := u.account]
      && a'.outage == a.outage
      && u.account.displayName == Some(p.displayName)
      && u.account.photoURL == (if p.photos[2].value.Some? then p.photos[2].value
                                else if p.id in a.users then a.users[p.id].photoURL else None)
      && (p.id !in a.users ==> !u.account.emailVerified && !u.account.disabled)
      && (p.id in a.users ==> u.account.emailVerified == a.users[p.id].emailVerified &&
                              u.account.disabled == a.users[p.id].disabled)
  {
    match FindUser(a, p.id)
    case Failure(e) => Failure(e)
    case Success(found) =>
      match AvatarFullUrl(p)
      case Failure(e) => Failure(e)
      case Success(url) =>
        if found.None? then
          CreateUser(a, p.id, CreateRequest(Some(p.id), None, false, p.displayName, url, false))
        else
          assert PhotoArgumentValid(OptionalStr(url));
          UpdateUser(a, p.id, UpdateRequest(p.displayName, OptionalStr(url)))
  }

  /**
   * Lines 69-74 after the Auth step: `profiles/{uid}/steam` is written and
   * the stored profile is merged with the user record.
   */
  function StoreSteamRecord(st: State, p: SteamProfile, found: Result<(Auth, UserRecord)>): (r: Run<Props>)
    ensures found.Failure? ==> r == Run(st, Failure(found.error))
    ensures found.Success? ==>
      var (a', u) := found.value;
      && r.state.auth == a'
      && r.state.db.profiles == Update(st.db.profiles, u.uid, SteamChild(p))
      && r.state.db.tokens == st.db.tokens
      && r.result.Success?
      && Read(r.result.value, "uid") == Str(u.uid)
      && Read(r.result.value, "steam") == p.json
  {
    match found
    case Failure(e) => Run(st, Failure(e))
    case Success((a', u)) =>
      var profiles' := Update(st.db.profiles, u.uid, SteamChild(p));
      assert profiles'[u.uid]["steam"] == p.json;
      Run(State(a', st.db.(profiles := profiles')), Success(Merge(profiles'[u.uid], u)))
  }

  /** The uid the login as written ends up under: the Steam id if a user has it, else the minted one. */
  function AsWrittenUid(a: Auth, p: SteamProfile, generated: Uid): Uid {
    if p.id in a.users then p.id else generated
  }

  /** `handleSteamLogin(accessToken, steamProfile)` as written; `generated` is the uid Firebase mints. */
  function HandleSteamLoginAsWritten(st: State, p: SteamProfile, generated: Uid): (r: Run<Props>)
    ensures r.result.Failure? ==> r.state == st
    ensures r.result.Success? ==>
      var uid := AsWrittenUid(st.auth, p, generated);
      && st.auth.outage.None?
      && r.state.auth.users.Keys == st.auth.users.Keys + {uid}
      && r.state.db.profiles == Update(st.db.profiles, uid, SteamChild(p))
      && Read(r.result.value, "uid") == Str(uid)
      && r.state.auth.users == st.auth.users[uid := r.state.auth.users[uid]]
    ensures FindOrCreateAsWritten(st.auth, p, generated).Success? ==>
      r.result.Success? && r.state.auth == FindOrCreateAsWritten(st.auth, p, generated).value.0
  {
    var found := FindOrCreateAsWritten(st.auth, p, generated);
    if found.Failure? then StoreSteamRecord(st, p, found)
    else
      var (a', u) := found.value;
      assert st.auth.outage.None?;
      assert u.uid == AsWrittenUid(st.auth, p, generated) && a'.users.Keys == st.auth.users.Keys + {u.uid};
      StoreSteamRecord(st, p, found)
  }

  /** `handleSteamLogin(accessToken, steamProfile)` with the user kept under its Steam id. */
  function HandleSteamLogin(st: State, p: SteamProfile): (r: Run<Props>)
    ensures r.result.Success? <==> st.auth.outage.None? && |p.photos| >= 3
    ensures r.result.Failure? ==> r.state == st
    ensures r.result.Success? ==>
      && r.state.auth.users.Keys == st.auth.users.Keys + {p.id}
      && r.state.auth.users[p.id].displayName == Some(p.displayName)
      && r.state.db.profiles == Update(st.db.profiles, p.id, SteamChild(p))
      && r.state.db.tokens == st.db.tokens
      && Read(r.result.value, "uid") == Str(p.id)
      && Read(r.result.value, "steam") == p.json
      && r.state.auth.users == st.auth.users[p.id := r.state.auth.users[p.id]]
    ensures r.result.Success? ==> r.state.auth == FindOrCreate(st.auth, p).value.0
  {
    var found := FindOrCreate(st.auth, p);
    if found.Failure? then StoreSteamRecord(st, p, found)
    else
      var (a', u) := found.value;
      assert u.uid == p.id && a'.users.Keys == st.auth.users.Keys + {p.id};
      StoreSteamRecord(st, p, found)
  }

  /**
   * As written, the user created on a first login is stored under the uid
   * Firebase minted, so the next login for the same Steam id finds nobody
   * and creates yet another user: the two logins return different uids.
   */
  lemma AsWrittenRepeatLoginCreatesAnotherUser(st: State, p: SteamProfile, g1: Uid, p2: SteamProfile, g2: Uid)
    requires st.auth.outage.None? && p.id !in st.auth.users && g1 != p.id
    requires HandleSteamLoginAsWritten(st, p, g1).result.Success?
    requires p2.id == p.id && |p2.photos| >= 3
    requires g2 !in HandleSteamLoginAsWritten(st, p, g1).state.auth.users
    ensures
      var r1 := HandleSteamLoginAsWritten(st, p, g1);
      var r2 := HandleSteamLoginAsWritten(r1.state, p2, g2);
      && r2.result.Success?
      && r2.state.auth.users.Keys == r1.state.auth.users.Keys + {g2}
      && g2 !in r1.state.auth.users
      && Read(r1.result.value, "uid") == Str(g1)
      && Read(r2.result.value, "uid") == Str(g2)
  {
    var r1 := HandleSteamLoginAsWritten(st, p, g1);
    var f1 := FindOrCreateAsWritten(st.auth, p, g1);
    assert r1.state.auth == f1.value.0;
    assert p2.id !in r1.state.auth.users && r1.state.auth.outage.None?;
    var f2 := FindOrCreateAsWritten(r1.state.auth, p2, g2);
    assert f2.Success?;
  }

  /**
   * As written, a login for a user that does exist under its Steam id is
   * rejected by `updateUser` with `auth/invalid-photo-url`, since the photo
   * object is not a URL, and nothing is written.
   */
  lemma AsWrittenUpdateRejectsPhotoObject(st: State, p: SteamProfile, generated: Uid)
    requires st.auth.outage.None? && p.id in st.auth.users && |p.photos| >= 3
    ensures
      var r := HandleSteamLoginAsWritten(st, p, generated);
      r.state == st && r.result.Failure? && r.result.error.code == Some(InvalidPhotoUrlCode)
  {
    assert !PhotoArgumentValid(AvatarFull(p));
  }

  /**
   * With the user kept under its Steam id, a second login for that id
   * finds the same user and creates none.
   */
  lemma RepeatLoginReusesUser(st: State, p: SteamProfile, p2: SteamProfile)
    requires HandleSteamLogin(st, p).result.Success?
    requires p2.id == p.id && |p2.photos| >= 3
    ensures
      var r1 := HandleSteamLogin(st, p);
      var r2 := HandleSteamLogin(r1.state, p2);
      && r2.result.Success?
      && r2.state.auth.users.Keys == r1.state.auth.users.Keys
      && Read(r2.result.value, "uid") == Read(r1.result.value, "uid")
  {
    var r1 := HandleSteamLogin(st, p);
    var f1 := FindOrCreate(st.auth, p);
    assert r1.state.auth == f1.value.0;
    assert r1.state.auth.outage.None?;
    var r2 := HandleSteamLogin(r1.state, p2);
    assert r2.result.Success?;
    assert Read(r2.result.value, "uid") == Str(p.id);
  }

  /**
   * With the URL passed instead of the photo object, an existing user's
   * login succeeds and stores the full-size avatar.
   */
  lemma ExistingUserGetsSteamAvatar(st: State, p: SteamProfile)
    requires st.auth.outage.None? && p.id in st.auth.users && |p.photos| >= 3
    requires p.photos[2].value.Some?
    ensures
      var r := HandleSteamLogin(st, p);
      r.result.Success? && r.state.auth.users[p.id].photoURL == p.photos[2].value
  {
    var found := FindOrCreate(st.auth, p);
    assert found.value.0 == HandleSteamLogin(st, p).state.auth;
  }

  /** What this file stores under `tokens/{uid}/discord`: the tokens the strategy obtained. */
  function TokenChild(account: DiscordAccount): Value {
    Obj([("accessToken", Str(account.accessToken)), ("refreshToken", Str(account.refreshToken))])
  }

  /**
   * `handleDiscordLogin(req, res, done)`: the same checks as the Discord
   * controller, then the `discord` children of `profiles/{uid}` and
   * `tokens/{uid}` are written and the profile merged with the user record
   * is returned.
   */
  function HandleDiscordLogin(st: State, userId: Option<string>, account: DiscordAccount): (r: Run<Props>)
    ensures DiscordController.CheckLink(st, userId, account).Failure? ==>
      r == Run(st, Failure(DiscordController.CheckLink(st, userId, account).error))
    ensures r.result.Success? <==> DiscordController.CheckLink(st, userId, account).Success?
    ensures r.result.Success? ==>
      var uid := userId.value;
      && r.state.auth == st.auth
      && r.state.db.profiles == Update(st.db.profiles, uid, map["discord" := account.profile])
      && r.state.db.tokens == Update(st.db.tokens, uid, map["discord" := TokenChild(account)])
      && r.result.value == Merge(r.state.db.profiles[uid], UserRecord(uid, st.auth.users[uid]))
  {
    match DiscordController.CheckLink(st, userId, account)
    case Failure(e) => Run(st, Failure(e))
    case Success(uid) =>
      var profiles' := Update(st.db.profiles, uid, map["discord" := account.profile]);
      var tokens' := Update(st.db.tokens, uid, map["discord" := TokenChild(account)]);
      Run(State(st.auth, Db(profiles', tokens')), Success(Merge(profiles'[uid], UserRecord(uid, st.auth.users[uid]))))
  }

  /**
   * A link writes the `discord` children of the signed-in user and nothing
   * else, and the user it returns carries the new Discord profile.
   */
  lemma LinkLeavesRestUntouched(st: State, userId: Option<string>, account: DiscordAccount, child: string)
    requires HandleDiscordLogin(st, userId, account).result.Success?
    ensures
      var r := HandleDiscordLogin(st, userId, account);
      var uid := userId.value;
      && (forall u :: u in st.db.profiles && u != uid ==> r.state.db.profiles[u] == st.db.profiles[u])
      && (forall u :: u in st.db.tokens && u != uid ==> r.state.db.tokens[u] == st.db.tokens[u])
      && (child != "discord" && child in st.db.profiles[uid] ==> r.state.db.profiles[uid][child] == st.db.profiles[uid][child])
      && (child != "discord" && child in Node(st.db.tokens, uid) ==> r.state.db.tokens[uid][child] == st.db.tokens[uid][child])
      && Read(r.result.value, "discord") == account.profile
  {
    var uid := userId.value;
    var r := HandleDiscordLogin(st, userId, account);
    assert "discord" !in UserFields(UserRecord(uid, st.auth.users[uid]));
    assert r.state.db.profiles[uid]["discord"] == account.profile;
  }

  /** Linking the same Discord account again passes the guard and changes nothing further. */
  lemma {:induction false} RelinkIsIdempotent(st: State, userId: Option<string>, account: DiscordAccount)
    requires HandleDiscordLogin(st, userId, account).result.Success?
    ensures
      var once := HandleDiscordLogin(st, userId, account);
      var twice := HandleDiscordLogin(once.state, userId, account);
      twice.result.Success? && twice.state == once.state && twice.result == once.result
  {
    var once := HandleDiscordLogin(st, userId, account);
    var uid := userId.value;
    var children := map["discord" := account.profile];
    var profiles' := Update(st.db.profiles, uid, children);
    assert Read(profiles'[uid], "discord") == account.profile;
    assert !LinkedToOther(profiles'[uid], account.profile);
    assert DiscordController.CheckLink(once.state, userId, account).Success?;
    UpdateIdempotent(st.db.profiles, uid, children);
    UpdateIdempotent(st.db.tokens, uid, map["discord" := TokenChild(account)]);
  }

  /**
   * `redirectWithToken`: the handler of lines 123-157 is the application's
   * (`validClients` in place of the configured clients), behind this
   * file's `asyncRequest`.
   */
  function RedirectWithToken(
    clients: Utils.Clients, session: Session, user: Option<Props>, mint: Value -> Result<string>): Response
  {
    AsyncRequest(clients, session, App.RedirectWithTokenHandler(clients, session, user, mint))
  }

  /**
   * The standalone redirect lands where the application's does, and
   * differs from it only in the unended 500 it leaves when the session
   * names no registered client.
   */
  lemma RedirectWithTokenMatchesApp(clients: Utils.Clients, session: Session, user: Option<Props>, mint: Value -> Result<string>)
    ensures
      var mine := RedirectWithToken(clients, session, user, mint);
      var app := App.RedirectWithToken(clients, session, user, mint);
      && (mine.Redirect? <==> app.Redirect?)
      && (mine.Redirect? ==> mine == app)
      && (!mine.Redirect? ==> app == Send(500, "Error logging in") && mine == Write(500, "Error logging in"))
  {
    AsyncRequestAgreesWithUtils(clients, session, App.RedirectWithTokenHandler(clients, session, user, mint));
    var outcome := App.RedirectWithTokenHandler(clients, session, user, mint);
    if outcome.Success? {
      assert outcome.value.Redirect?;
    }
  }
}

=== FILE: passport.dfy ===
/**
 * What the identity-provider strategies hand to the bridge once their own
 * protocol (Steam OpenID, Discord OAuth2) has finished: the Steam profile
 * object of `passport-steam` and the `req.user` built by the Discord
 * strategy's verify callback.
 */
module Passport {
  import opened Js

  /** One entry of `profile.photos`: `{ value: url }`. */
  datatype Photo = Photo(value: Option<string>)

  /**
   * The `passport-steam` profile.  `id` is the Steam id as the decimal text
   * `id.toString()` produces; `json` is the raw Steam Web API player summary
   * (`_json`).
   */
  datatype SteamProfile = SteamProfile(id: string, displayName: string, photos: seq<Photo>, json: Value)

  /** `{ value: url }` as a JavaScript object. */
  function PhotoObject(p: Photo): Value {
    if p.value.Some? then Obj([("value", Str(p.value.value))]) else Obj([])
  }

  /** `profile.photos[2]`: the full-size avatar object, `undefined` past the end of the array. */
  function AvatarFull(p: SteamProfile): Value {
    if |p.photos| >= 3 then PhotoObject(p.photos[2]) else Undefined
  }

  /** `profile.photos[2].value`: reading `.value` off `undefined` throws a TypeError. */
  function AvatarFullUrl(p: SteamProfile): (r: Result<Option<string>>)
    ensures r.Success? <==> |p.photos| >= 3
    ensures r.Success? ==> r.value == p.photos[2].value
  {
    if |p.photos| >= 3 then Success(p.photos[2].value)
    else Failure(Error("Cannot read property 'value' of undefined", None))
  }

  /** The text of an optional string as a JavaScript value. */
  function OptionalStr(o: Option<string>): Value {
    if o.Some? then Str(o.value) else Undefined
  }

  /**
   * The Discord strategy's `req.user`: `{ discordProfile, accessToken, refreshToken }`.
   */
  datatype DiscordAccount = DiscordAccount(profile: Value, accessToken: string, refreshToken: string)

  function DiscordUser(a: DiscordAccount): Props {
    map["discordProfile" := a.profile, "accessToken" := Str(a.accessToken), "refreshToken" := Str(a.refreshToken)]
  }

  /**
   * How the provider handshake behind `passport.authenticate` ends on a
   * callback: with an identity for the strategy's verify callback, or in
   * failure, which sends the browser to `failureRedirect`.
   */
  datatype Handshake<+T> = Verified(identity: T) | Denied
}

=== FILE: steam_controller.dfy ===
/**
 * The Steam verify callback wired by the application
 * (`src/api/steam-controller.ts`): find the user through the
 * `steam/steamid` index of the profiles tree, create or refresh the Auth
 * user, upsert the profile node, and resolve with the merged user.
 */
module SteamController {
  import opened Js
  import opened Firebase
  import opened Passport
  import opened UserModel

  /** The avatar stored when Steam gives none. */
  const UnknownUrl := "https://steamcdn-a.akamaihd.net/steamcommunity/public/images/avatars/fe/fef49e7fa7e1997310d705b2a6158ff8dc1cdfeb_full.jpg"

  /** A profile node whose `steam/steamid` child equals the Steam id. */
  predicate IndexedUnder(node: Props, id: string) {
    Prop(Read(node, "steam"), "steamid") == Str(id)
  }

  /** The keys `orderByChild("steam/steamid").equalTo(id)` returns. */
  function Matches(profiles: map<Uid, Props>, id: string): (m: set<Uid>)
    ensures forall u :: u in m <==> u in profiles && IndexedUnder(profiles[u], id)
  {
    set u | u in profiles && IndexedUnder(profiles[u], id)
  }

  /** `Object.keys(firebaseProfiles)[0]` when the query found anything. */
  function ExistingUserId(profiles: map<Uid, Props>, id: string): (r: Option<Uid>)
    ensures r.None? <==> Matches(profiles, id) == {}
    ensures r.Some? ==> r.value in Matches(profiles, id)
    ensures r.Some? ==> forall u :: u in Matches(profiles, id) ==> KeyLe(r.value, u)
  {
    var m := Matches(profiles, id);
    if m == {} then None else Some(FirstKey(m))
  }

  /** `existingUserId && …`: an empty key is falsy and counts as no match. */
  predicate HasExisting(profiles: map<Uid, Props>, id: string) {
    var e := ExistingUserId(profiles, id);
    e.Some? && e.value != ""
  }

  /** The uid the login ends up under: the matched one, or the one `createUser` mints. */
  function LoginUid(profiles: map<Uid, Props>, p: SteamProfile, generated: Uid): Uid {
    if HasExisting(profiles, p.id) then ExistingUserId(profiles, p.id).value else generated
  }

  /** `(photos && photos[2] && photos[2].value) || unknownUrl`. */
  function ProfilePhoto(p: SteamProfile): (url: string)
    ensures |p.photos| >= 3 && p.photos[2].value.Some? && p.photos[2].value.value != "" ==>
      url == p.photos[2].value.value
    ensures |p.photos| < 3 || p.photos[2].value.None? || p.photos[2].value.value == "" ==>
      url == UnknownUrl
    ensures url != ""
  {
    if |p.photos| >= 3 && p.photos[2].value.Some? && p.photos[2].value.value != "" then p.photos[2].value.value
    else UnknownUrl
  }

  /** The children the login writes into `profiles/{uid}`. */
  function ProfileUpdate(p: SteamProfile): Props {
    map["displayName" := Str(p.displayName), "photoURL" := Str(ProfilePhoto(p)), "steam" := p.json]
  }

  /** The synthesised e-mail address of a new user. */
  function SteamEmail(id: string): string {
    id + "@steamcommunity.com"
  }

  /**
   * Lines 17-43: find the user through the index or create it; either way
   * `displayName` and `photoURL` come from the Steam profile, the latter
   * read as `photos[2].value` without a guard.
   */
  function FindOrCreate(a: Auth, profiles: map<Uid, Props>, p: SteamProfile, generated: Uid): (r: Result<(Auth, UserRecord)>)
    ensures r.Success? <==>
      && a.outage.None?
      && |p.photos| >= 3
      && (if HasExisting(profiles, p.id) then LoginUid(profiles, p, generated) in a.users
          else generated !in a.users && !EmailTaken(a, Some(SteamEmail(p.id))))
    ensures r.Success? ==>
      var (a', u) := r.value;
      && u.uid == LoginUid(profiles, p, generated)
      && a'.users == a.users[u.uid := u.account]
      && a'.outage == a.outage
      && u.account.displayName == Some(p.displayName)
      && (p.photos[2].value.Some? ==> u.account.photoURL == p.photos[2].value)
      && (HasExisting(profiles, p.id) ==> u.uid in a.users)
      && (!HasExisting(profiles, p.id) ==> u.account == Account(Some(SteamEmail(p.id)), false, Some(p.displayName), p.photos[2].value, false))
  {
    if HasExisting(profiles, p.id) then
      var uid := ExistingUserId(profiles, p.id).value;
      match GetUser(a, uid)
      case Failure(e) => Failure(e)
      case Success(_) =>
        match AvatarFullUrl(p)
        case Failure(e) => Failure(e)
        case Success(url) => UpdateUser(a, uid, UpdateRequest(p.displayName, OptionalStr(url)))
    else
      match AvatarFullUrl(p)
      case Failure(e) => Failure(e)
      case Success(url) =>
        CreateUser(a, generated, CreateRequest(None, Some(SteamEmail(p.id)), false, p.displayName, url, false))
  }

  /**
   * When the index finds no profile for the Steam id (the node was deleted,
   * or never got its `steam` record) but an Auth user already holds the
   * synthesised e-mail address, `createUser` rejects with
   * `auth/email-already-exists`: the player cannot log in at all.
   */
  lemma OrphanedEmailBlocksLogin(a: Auth, profiles: map<Uid, Props>, p: SteamProfile, generated: Uid, holder: Uid)
    requires a.outage.None? && |p.photos| >= 3
    requires !HasExisting(profiles, p.id) && generated !in a.users
    requires holder in a.users && a.users[holder].email == Some(SteamEmail(p.id))
    ensures
      var r := FindOrCreate(a, profiles, p, generated);
      r.Failure? && r.error.code == Some(EmailExistsCode)
  {
    assert EmailTaken(a, Some(SteamEmail(p.id)));
  }

  /**
   * `handleSteamLogin(accessToken, steamProfile)`.  `generated` is the uid
   * Firebase mints if a user has to be created.
   */
  function HandleSteamLogin(st: State, p: SteamProfile, generated: Uid): (r: Run<Props>)
    ensures r.result.Failure? ==> r.state == st
    ensures |p.photos| < 3 ==> r.result.Failure?
    ensures r.result.Success? <==> FindOrCreate(st.auth, st.db.profiles, p, generated).Success?
    ensures HasExisting(st.db.profiles, p.id) ==> r.state.auth.users.Keys == st.auth.users.Keys
    ensures r.result.Success? ==>
      var uid := LoginUid(st.db.profiles, p, generated);
      && r.state.auth.users.Keys == st.auth.users.Keys + {uid}
      && r.state.auth.users[uid].displayName == Some(p.displayName)
      && r.state.db.profiles == Update(st.db.profiles, uid, ProfileUpdate(p))
      && r.state.db.tokens == st.db.tokens
      && r.result.value == Merge(r.state.db.profiles[uid], UserRecord(uid, r.state.auth.users[uid]))
      && r.state.auth.users == st.auth.users[uid := r.state.auth.users[uid]]
    ensures FindOrCreate(st.auth, st.db.profiles, p, generated).Success? ==>
      r.state.auth == FindOrCreate(st.auth, st.db.profiles, p, generated).value.0
  {
    match FindOrCreate(st.auth, st.db.profiles, p, generated)
    case Failure(e) => Run(st, Failure(e))
    case Success((a', u)) =>
      var profiles' := Update(st.db.profiles, u.uid, ProfileUpdate(p));
      Run(State(a', st.db.(profiles := profiles')), Success(Merge(profiles'[u.uid], u)))
  }

  /**
   * The profile node after a login: `displayName`, `photoURL` and `steam`
   * are rewritten, the avatar falling back to the default only when
   * `photos[2].value` is missing or empty, and every other child (a linked
   * `discord` profile, say) is kept.
   */
  lemma LoginUpsertsProfile(st: State, p: SteamProfile, generated: Uid, child: string)
    requires HandleSteamLogin(st, p, generated).result.Success?
    ensures
      var r := HandleSteamLogin(st, p, generated);
      var uid := LoginUid(st.db.profiles, p, generated);
      && r.state.db.profiles[uid]["steam"] == p.json
      && r.state.db.profiles[uid]["displayName"] == Str(p.displayName)
      && r.state.db.profiles[uid]["photoURL"] ==
           Str(if p.photos[2].value.Some? && p.photos[2].value.value != "" then p.photos[2].value.value else UnknownUrl)
      && (child !in ProfileUpdate(p) && child in Node(st.db.profiles, uid) ==>
            r.state.db.profiles[uid][child] == st.db.profiles[uid][child])
      && (forall u :: u in st.db.profiles && u != uid ==> r.state.db.profiles[u] == st.db.profiles[u])
  {
    var uid := LoginUid(st.db.profiles, p, generated);
    UpsertWrites(st.db.profiles, uid, p, child);
  }

  lemma UpsertWrites(profiles: map<Uid, Props>, uid: Uid, p: SteamProfile, child: string)
    requires |p.photos| >= 3
    ensures
      var after := Update(profiles, uid, ProfileUpdate(p));
      && after[uid]["steam"] == p.json
      && after[uid]["displayName"] == Str(p.displayName)
      && after[uid]["photoURL"] ==
           Str(if p.photos[2].value.Some? && p.photos[2].value.value != "" then p.photos[2].value.value else UnknownUrl)
      && (child !in ProfileUpdate(p) && child in Node(profiles, uid) ==> after[uid][child] == profiles[uid][child])
  {
    var upd := ProfileUpdate(p);
    assert upd["photoURL"] == Str(ProfilePhoto(p));
  }

  /**
   * Writing the login's profile update under `uid` adds `uid` to the index
   * matches for the profile's own Steam id and changes no other match.
   */
  lemma MatchesAfterUpsert(profiles: map<Uid, Props>, uid: Uid, p: SteamProfile)
    requires Prop(p.json, "steamid") == Str(p.id)
    ensures Matches(Update(profiles, uid, ProfileUpdate(p)), p.id) == Matches(profiles, p.id) + {uid}
  {
    var after := Update(profiles, uid, ProfileUpdate(p));
    assert IndexedUnder(after[uid], p.id) by {
      assert after[uid]["steam"] == p.json;
    }
    forall u | u in after && u != uid ensures IndexedUnder(after[u], p.id) <==> u in profiles && IndexedUnder(profiles[u], p.id) {
      assert after[u] == profiles[u];
    }
  }

  lemma FirstOfMatches(m: set<Uid>, uid: Uid)
    requires m != {} && uid in m
    requires forall u :: u in m ==> KeyLe(uid, u)
    ensures FirstKey(m) == uid
  {
    var f := FirstKey(m);
    KeyLeAntisymmetric(f, uid);
  }

  /**
   * Once a login has stored a Steam record carrying the Steam id, the next
   * login for that id finds the same uid through the index and creates no
   * user: it succeeds under that uid as soon as Steam sends the full avatar
   * list.  (Firebase keys are never empty, and the player summary's
   * `steamid` is the profile id.)
   */
  lemma RepeatLoginReusesUid(st: State, p: SteamProfile, g1: Uid, p2: SteamProfile, g2: Uid)
    requires "" !in st.db.profiles && g1 != ""
    requires Prop(p.json, "steamid") == Str(p.id)
    requires p2.id == p.id
    requires HandleSteamLogin(st, p, g1).result.Success?
    ensures
      var r1 := HandleSteamLogin(st, p, g1);
      var r2 := HandleSteamLogin(r1.state, p2, g2);
      var uid := LoginUid(st.db.profiles, p, g1);
      && LoginUid(r1.state.db.profiles, p2, g2) == uid
      && HasExisting(r1.state.db.profiles, p2.id)
      && r2.state.auth.users.Keys == r1.state.auth.users.Keys
      && (|p2.photos| >= 3 <==> r2.result.Success?)
      && (r2.result.Success? ==> Read(r2.result.value, "uid") == Read(r1.result.value, "uid"))
  {
    var r1 := HandleSteamLogin(st, p, g1);
    var uid := LoginUid(st.db.profiles, p, g1);
    IndexFindsUpsertedUid(st.db.profiles, p, g1);
    assert r1.state.db.profiles == Update(st.db.profiles, uid, ProfileUpdate(p));
    assert uid in r1.state.auth.users;
  }

  /**
   * After the login's profile write, the index lookup for the same Steam id
   * yields the uid the login used: the one it matched, or the new one when
   * nothing matched before.
   */
  lemma {:induction false} IndexFindsUpsertedUid(profiles: map<Uid, Props>, p: SteamProfile, generated: Uid)
    requires "" !in profiles && generated != ""
    requires Prop(p.json, "steamid") == Str(p.id)
    ensures
      var uid := LoginUid(profiles, p, generated);
      var after := Update(profiles, uid, ProfileUpdate(p));
      ExistingUserId(after, p.id) == Some(uid) && HasExisting(after, p.id)
  {
    var uid := LoginUid(profiles, p, generated);
    var m0 := Matches(profiles, p.id);
    MatchesAfterUpsert(profiles, uid, p);
    var m1 := Matches(Update(profiles, uid, ProfileUpdate(p)), p.id);
    assert m1 == m0 + {uid};
    if HasExisting(profiles, p.id) {
      assert uid == FirstKey(m0);
      assert m1 == m0;
    } else {
      assert m0 == {};
      assert uid == generated;
      KeyLeReflexive(uid);
      FirstOfMatches(m1, uid);
    }
  }
}

=== FILE: user_model.dfy ===
/**
 * `User` (an Auth user record merged with its profile node) and the
 * `AlreadyLinkedError` raised when a second Discord account is linked.
 */
module UserModel {
  import opened Js
  import opened Firebase
  import Passport

  const AlreadyLinkedCode := "firebase-steam-login/account-already-linked"

  /** `new AlreadyLinkedError()`. */
  const AlreadyLinkedError := Error("Account already linked to a different account", Some(AlreadyLinkedCode))

  /** The own properties of a `UserRecord` object. */
  function UserFields(u: UserRecord): Props {
    map[
      "uid" := Str(u.uid),
      "email" := Passport.OptionalStr(u.account.email),
      "emailVerified" := Bool(u.account.emailVerified),
      "displayName" := Passport.OptionalStr(u.account.displayName),
      "photoURL" := Passport.OptionalStr(u.account.photoURL),
      "disabled" := Bool(u.account.disabled)]
  }

  /**
   * `Object.assign({}, profile, user)`: every property of either, where
   * the user record's properties win over same-named profile children.
   */
  function Merge(profile: Props, u: UserRecord): (r: Props)
    ensures r.Keys == profile.Keys + UserFields(u).Keys
    ensures forall k :: k in UserFields(u) ==> r[k] == UserFields(u)[k]
    ensures forall k :: k in profile && k !in UserFields(u) ==> r[k] == profile[k]
    ensures Read(r, "uid") == Str(u.uid)
    ensures Read(r, "displayName") == Passport.OptionalStr(u.account.displayName)
  {
    profile + UserFields(u)
  }

  /**
   * The link guard: the profile already holds a truthy `discord` child
   * whose `id` differs from the id of the account being linked.
   */
  predicate LinkedToOther(profile: Props, discordProfile: Value) {
    Truthy(Read(profile, "discord")) && Prop(Read(profile, "discord"), "id") != Prop(discordProfile, "id")
  }

  /** After a link has stored a Discord profile, linking that same profile again passes the guard. */
  lemma RelinkSameAccountPasses(profile: Props, discordProfile: Value)
    ensures !LinkedToOther(profile["discord" := discordProfile], discordProfile)
  {
  }
}

=== FILE: utils.dfy ===
/**
 * The client registry lookup and the wrappers that turn a handler's
 * settled promise into an HTTP answer (`src/utils.ts`).
 */
module Utils {
  import opened Js
  import opened Http

  /** The allow-list: client id to the redirect base URL of that application. */
  type Clients = map<string, string>

  /**
   * `clients[key]` used as a condition and then as a URL: only a present,
   * non-empty entry counts, since `""` is falsy.
   */
  function ClientUrl(clients: Clients, key: string): (r: Option<string>)
    ensures r.Some? <==> key in clients && clients[key] != ""
    ensures r.Some? ==> r.value == clients[key]
  {
    if key in clients && clients[key] != "" then Some(clients[key]) else None
  }

  /** The property name `obj[session.client_id]` reads: an unset id is the key "undefined". */
  function SessionKey(clientId: Option<string>): string {
    if clientId.Some? then clientId.value else "undefined"
  }

  /** `e.code ? e.code : "unknown"`. */
  function ErrorCode(e: Error): (code: string)
    ensures code != ""
    ensures e.code.Some? && e.code.value != "" ==> code == e.code.value
    ensures e.code.None? || e.code.value == "" ==> code == "unknown"
  {
    if e.code.Some? && e.code.value != "" then e.code.value else "unknown"
  }

  /**
   * `asyncRequestRedirectOnError`: a resolved handler keeps its own
   * response; a rejected one sends the browser back to the client stored
   * in the session, with the error code, or answers 500 when the session
   * names no registered client.
   */
  function AsyncRequestRedirectOnError(clients: Clients, session: Session, outcome: Result<Response>): (r: Response)
    ensures outcome.Success? ==> r == outcome.value
    ensures outcome.Failure? && ClientUrl(clients, SessionKey(session.clientId)).Some? ==>
      r == Redirect(clients[SessionKey(session.clientId)] + "?code=" + ErrorCode(outcome.error))
    ensures outcome.Failure? && ClientUrl(clients, SessionKey(session.clientId)).None? ==>
      r == Send(500, "Error logging in")
  {
    match outcome
    case Success(resp) => resp
    case Failure(e) =>
      var url := ClientUrl(clients, SessionKey(session.clientId));
      if url.Some? then Redirect(url.value + "?code=" + ErrorCode(e)) else Send(500, "Error logging in")
  }

  /**
   * The error path never redirects anywhere but to a registered client, and
   * where it goes is fixed by the session's client id alone: two failures
   * with the same code give the same answer whatever else differs.
   */
  lemma ErrorRedirectStaysInRegistry(clients: Clients, session: Session, e1: Error, e2: Error)
    ensures
      var r := AsyncRequestRedirectOnError(clients, session, Failure(e1));
      r.Redirect? ==> exists key :: key in clients && clients[key] != "" && r.location == clients[key] + "?code=" + ErrorCode(e1)
    ensures ErrorCode(e1) == ErrorCode(e2) ==>
      AsyncRequestRedirectOnError(clients, session, Failure(e1)) == AsyncRequestRedirectOnError(clients, session, Failure(e2))
  {
    var r := AsyncRequestRedirectOnError(clients, session, Failure(e1));
    if r.Redirect? {
      var key := SessionKey(session.clientId);
      assert key in clients && clients[key] != "";
    }
  }

  /** `asyncRequest`: a rejection becomes a 500 whose body is "Error " followed by the message. */
  function AsyncRequest(outcome: Result<Response>): (r: Response)
    ensures outcome.Success? ==> r == outcome.value
    ensures outcome.Failure? ==> r == Send(500, "Error " + outcome.error.message)
  {
    match outcome
    case Success(resp) => resp
    case Failure(e) => Send(500, "Error " + e.message)
  }

  /**
   * The 500 of `asyncRequest` is always the fixed prefix "Error " followed
   * by the rejection's message, so the message can be read back off it and
   * two errors give the same answer exactly when their messages agree.
   */
  lemma AsyncRequestReportsMessage(e1: Error, e2: Error)
    ensures
      var r := AsyncRequest(Failure(e1));
      && r.Send? && r.status == 500
      && |r.body| == 6 + |e1.message| && r.body[..6] == "Error " && r.body[6..] == e1.message
    ensures AsyncRequest(Failure(e1)) == AsyncRequest(Failure(e2)) <==> e1.message == e2.message
  {
    var b1 := AsyncRequest(Failure(e1)).body;
    var b2 := AsyncRequest(Failure(e2)).body;
    assert b1[6..] == e1.message && b2[6..] == e2.message;
  }

  /** The single argument `done` (Express' `next`) receives. */
  datatype Done = DoneWith(value: Value) | DoneWithError(error: Error)

  /**
   * `asyncMiddleware`: `promise.then(done, done)` — one call, carrying the
   * resolved value or the rejection reason.
   */
  function AsyncMiddleware(outcome: Result<Value>): (d: Done)
    ensures outcome.Success? <==> d.DoneWith?
    ensures outcome.Success? ==> d.value == outcome.value
    ensures outcome.Failure? ==> d.error == outcome.error
  {
    match outcome
    case Success(v) => DoneWith(v)
    case Failure(e) => DoneWithError(e)
  }

  /**
   * Express continues with the next handler of the route when `next` gets a
   * falsy argument; any truthy argument (an `Error` object in particular)
   * switches to the error-handling chain.
   */
  predicate Proceeds(d: Done) {
    d.DoneWith? && !Truthy(d.value)
  }

  /** A middleware whose async function resolves with `undefined` hands over to the next handler; one that rejects never does. */
  lemma MiddlewareProceedsIffResolvedFalsy(outcome: Result<Value>)
    ensures Proceeds(AsyncMiddleware(outcome)) <==> outcome.Success? && !Truthy(outcome.value)
  {
  }
}
